=== FILE: README.md ===
# GrebBot notification core in Dafny

GrebBot is a chat-platform bot. It watches member presence updates, notices when a member
starts playing Sea of Thieves, and relays that to every guild (community) that subscribed.
Each subscribed guild gets a message in its configured text channel. Members who opted in to
direct messages for that guild get a DM as well. A per-(member, guild) cooldown of 120 seconds
suppresses repeated notifications. A small web dashboard keeps a bounded log buffer and
reports the bot's status.

This project models that logic as pure Dafny functions and proves what the bot promises about it:

- `common.dfy` (`Common`): optional values, identifier types, Python truthiness of optional
  strings, and ASCII case mapping with its case-variant characterisation.
- `cooldowns.dfy` (`Cooldowns`): the cooldown tracker of the subscription manager. It covers
  the window test, the remaining-seconds report, the update, the reset command and the
  guild-wide `cooldown_status` listing.
- `store.dfy` (`Store`): the two document collections, guild subscriptions and DM
  subscriptions. It covers `find_one`, the `$set` upsert, and the enabled-only queries.
- `commands.dfy` (`Commands`): the guards of `subscribe`, `unsubscribe`, `dm_subscribe` and
  `dm_unsubscribe`.
- `dispatcher.dfy` (`Dispatcher`): `notify_sea_of_thieves_activity`, the per-guild fan-out
  with its channel send, DM loop and cooldown update.
- `presence.dfy` (`Presence`): the game-start detector and the debug classification of the
  presence cog.
- `handler.dfy` (`Handler`): one presence update end to end, from the start detection
  through the dispatcher to the debug output, with the start check called as a plain
  function (the corrected detection of "## Findings"; as written every update raises
  `TypeError` before the dispatcher is reached).
- `web.dfy` (`WebInterface`): the 100-entry log buffer, the `bot_status` aggregation and the
  `DEBUG_MODE` flag parse.

Modelling conventions:

- **Collections.** A collection is a sequence of documents in the order the store returns
  them. `find_one` is the first match. An upsert rewrites the first match or appends a new
  document. The saves provably keep one document per key.
- **Ordered dict.** `get_all_subscriptions` builds a Python dict. It is modelled as an
  ordered list of (key, value) pairs: a repeated key replaces the value in place.
- **Optional fields.** Document fields are optional. This models the `$set` merge and the
  `.get(key, default)` reads.
- **Time.** The clock is an integer number of milliseconds, passed in as `now`. This makes
  the truncation by `int()` in the remaining-time report visible.
- **Platform.** The platform's answers are inputs to the dispatcher: guild rosters,
  resolvable channels and users, and the channels and users whose delivery raises.
- **Effects.** The dispatcher returns the deliveries it attempts, in order, with the new
  cooldown map.

Three behaviours of the code that the model keeps:

- **DMs and cooldown after a failed send.** The DM loop and `update_cooldown` sit in the same
  `try` block after `channel.send` (cogs/subscription_manager.py:278-321). So a send that
  raises skips both. `Dispatcher.NotifyGuild` states this.
- **Truncated seconds.** `int()` truncates the remaining time
  (cogs/subscription_manager.py:153-155). So the last second of the window reports 0, and the
  guild-wide listing omits that member even though it is still on cooldown.
  `Cooldowns.Remaining` and `Cooldowns.ActiveCooldowns` state this.
- **A raise in the dispatcher.** Reading `channel_id` (cogs/subscription_manager.py:273) sits
  outside the `try`. So an enabled subscription without a channel id whose guard checks pass
  (the member is in the guild, start notifications are on, the pair is off cooldown) ends the
  whole dispatch after the earlier guilds were already notified; a guild that fails a guard is
  skipped and the dispatch goes on. Once the start check is called as a plain
  function (see "## Findings"), that `KeyError` propagates out of the presence handler before
  its debug output (cogs/presenceChanges.py:53); as written, the handler raises `TypeError`
  earlier and never reaches the dispatcher.
  `Dispatcher.NotifyEachPrefix`, `Dispatcher.NotifyEachCutOff` and `Handler.HandlePresence`
  state this.

## Model

| member | source | states |
|---|---|---|
| Common.LowerEqualsIffCaseVariant | cogs/presenceChanges.py:25 | comparing `s.lower()` with a lower-case word holds exactly for the spellings of that word with any letters in upper case |
| Cooldowns.IsOnCooldown | cogs/subscription_manager.py:126-137 | false without an entry for the member or for the (member, guild) pair; otherwise true exactly when less than 120 s have passed, strictly |
| Cooldowns.Remaining | cogs/subscription_manager.py:146-155 | 0 when not on cooldown; otherwise the time left in the window truncated to whole seconds; never negative, and at most 120 once the recorded time is not in the future |
| Cooldowns.Update | cogs/subscription_manager.py:139-144 | the (member, guild) entry becomes now, created if absent; every other pair keeps its entry |
| Cooldowns.UpdateReplaces | cogs/subscription_manager.py:139-144 | a second update of the same pair replaces the first |
| Cooldowns.UpdateOpensWindow | cogs/subscription_manager.py:126-155 | after an update at t the pair is on cooldown exactly until t + 120 s, and 120 s are reported at t |
| Cooldowns.RemainingNonIncreasing | cogs/subscription_manager.py:146-155 | as the clock advances between updates the reported remaining time never goes up |
| Cooldowns.ResetCooldown | cogs/subscription_manager.py:377-389 | clears exactly when an entry exists, active or expired; afterwards the pair has no entry and is never on cooldown; other pairs keep their entries; without an entry nothing changes |
| Cooldowns.ActiveCooldowns | cogs/subscription_manager.py:346-354 | lists a member exactly when it has a guild entry with at least one whole second left and resolves in the guild, with its remaining seconds (at least 1) |
| Store.FindFirst | cogs/subscription_manager.py:40 | the index of the first document with the key, or none exactly when no document has it |
| Store.GetSubscription | cogs/subscription_manager.py:37-44 | none exactly when no document has the guild id; otherwise a stored document with that id |
| Store.SaveSubscription | cogs/subscription_manager.py:46-56 | afterwards the guild's document is the old one (or a fresh one) with the written fields replaced and the rest preserved; other guilds are untouched; one document per guild is kept |
| Store.SaveThenGet | cogs/subscription_manager.py:46-56 | field by field, a written field reads back the new value and an unwritten field its old value |
| Store.SaveFullRoundTrip | cogs/subscription_manager.py:174-184 | saving every field reads back exactly the document written |
| Store.GetAllSubscriptions | cogs/subscription_manager.py:58-67 | a dict with one entry per key, each an enabled document stored under its own guild id, with a key for a guild exactly when it has an enabled document |
| Store.GetAllIsEnabledDocs | cogs/subscription_manager.py:58-67 | with one document per guild, the dict is exactly the enabled documents in store order, keyed by guild id |
| Store.GetDmSubscription | cogs/subscription_manager.py:69-79 | none exactly when no DM document has the (user, guild) pair; otherwise a stored document for that pair |
| Store.SaveDmSubscription | cogs/subscription_manager.py:81-96 | afterwards the pair's DM document carries the written flag; other pairs are untouched; one document per pair is kept |
| Store.GetDmSubscribers | cogs/subscription_manager.py:98-110 | a user is listed exactly when it has an enabled DM document for the guild, and no user twice while documents are unique |
| Store.GetAllDmSubscriptionsForUser | cogs/subscription_manager.py:112-124 | exactly the user's enabled DM documents, and none twice while each (user, guild) pair has one document |
| Store.UserDmsAreFilter | cogs/subscription_manager.py:115-121 | the user's list keeps the store's order and lists each of the user's enabled documents as often as it is stored, and nothing else |
| Store.DmQueriesAgree | cogs/subscription_manager.py:98-124 | an enabled DM document of a user for a guild is in the user's list exactly when the user is among that guild's DM subscribers |
| Commands.Subscribe | cogs/subscription_manager.py:157-184 | writes exactly when a channel argument is given (always a text channel) or the current channel is a text channel, and then stores that channel with the guild, the channel, enabled and start notifications on; other guilds untouched; otherwise an error and no write |
| Commands.Unsubscribe | cogs/subscription_manager.py:196-217 | writes exactly when the guild's document exists and is enabled, and then only `enabled` turns false; otherwise an error and no write |
| Commands.DmSubscribe | cogs/subscription_manager.py:393-420 | refuses outside a guild; writes an enabled DM document exactly when the guild's subscription exists and is enabled; other pairs untouched; in a guild without an enabled subscription, the "server not subscribed" reply and no write |
| Commands.DmUnsubscribe | cogs/subscription_manager.py:422-449 | refuses outside a guild; writes a disabled DM document exactly when an enabled one exists; other pairs untouched; in a guild without an enabled DM document, the "not subscribed to DMs" reply and no write |
| Commands.SubscribeEnables | cogs/subscription_manager.py:157-184 | a successful subscribe makes the guild one of the enabled subscriptions the dispatcher reads |
| Commands.UnsubscribeDisables | cogs/subscription_manager.py:196-217 | with one document per guild, a successful unsubscribe takes the guild out of the enabled subscriptions |
| Commands.DmSubscribeThenUnsubscribe | cogs/subscription_manager.py:393-449 | with one DM document per pair, subscribing lists the user among the guild's DM subscribers and unsubscribing takes them out again, every other pair unchanged |
| Dispatcher.DmFanOut | cogs/subscription_manager.py:294-315 | every listed subscriber who resolves and is not the player gets an attempt, delivered or failed; one failure does not stop the others; no recipient twice when the subscriber list has no repeats |
| Dispatcher.NotifyGuild | cogs/subscription_manager.py:253-321 | the channel is sent to exactly when the guild is enabled, resolves, has the member, wants start events, is off cooldown and its channel resolves; a missing channel id raises; DMs and the cooldown update follow only a successful send; no other cooldown changes |
| Dispatcher.NotifyEach | cogs/subscription_manager.py:253-321 | the loop over the dict in its order, threading the cooldown map and stopping at a raise: its effects only concern guilds of the dict (with `NotifyEachPrefix`, `NotifyEachCutOff`, `NotifyEachAborts` and `NotifyEachCooldowns` for the rest) |
| Dispatcher.Notify | cogs/subscription_manager.py:248-253 | effects only ever concern guilds with an enabled subscription |
| Dispatcher.NotifyEachPrefix | cogs/subscription_manager.py:253-321 | over a dict with one entry per guild, a guild that no earlier guild's `KeyError` cut off gets exactly its own step's deliveries, judged against the cooldowns the event found, so a later raise takes nothing back |
| Dispatcher.NotifyEachCutOff | cogs/subscription_manager.py:253-275 | a guild after a guild whose step raises `KeyError` gets no delivery |
| Dispatcher.NotifyEachAborts | cogs/subscription_manager.py:253-275 | the loop stops early exactly when some guild passes the guards without a channel id |
| Dispatcher.NotifyEachCooldowns | cogs/subscription_manager.py:267-318 | the only cooldown entries that change are the member's entries for the guilds whose channel send succeeded, each set to now |
| Dispatcher.NotifyIndependent | cogs/subscription_manager.py:248-321 | each guild's deliveries are those of its own step against the cooldowns the event found, so one guild's cooldown never suppresses another; guilds before the first raising one keep their deliveries and later guilds get none; the dispatch stops early exactly when some guild raises; only the member's cooldowns for guilds actually sent to change, each to now |
| Presence.IsTrackedGame | cogs/presenceChanges.py:14-27 | false for no name or an empty name; otherwise true exactly for the case variants of "sea of thieves", with no substring match or trimming |
| Presence.DetectStart | cogs/presenceChanges.py:29-41 | a start is dispatched, with the after snapshot and "start", exactly when the member goes from not playing the game to playing it and the subscription manager is loaded |
| Presence.AsWrittenMissesStart | cogs/presenceChanges.py:35-36 | a genuine start that the intended detector dispatches makes the written detector raise instead |
| Presence.DetectStartAsWritten | cogs/presenceChanges.py:29-41 | `check_sea_of_thieves_activity` as written: the bound call at line 35 raises `TypeError` on every input, before the dispatcher is reached |
| Presence.OnPresenceUpdateAsWritten | cogs/presenceChanges.py:50-73 | `on_presence_update` as written: every update raises `TypeError` at line 53, before the debug classification |
| Presence.AsWrittenDiverges | cogs/presenceChanges.py:35-53 | on every update the written handler raises where the intended handler returns |
| Presence.Classify | cogs/presenceChanges.py:58-73 | equal names give no output; otherwise both present is a switch, only the new one a start and only the old one a stop, carrying the names |
| Presence.ClassifyReverses | cogs/presenceChanges.py:62-73 | reading a change backwards swaps start and stop and reverses a switch |
| Presence.OnPresenceUpdate | cogs/presenceChanges.py:50-73 | with the corrected start detection: a dispatch exactly on a genuine start with the manager loaded; the handler raises exactly when that dispatch raises; a debug line exactly in debug mode, without a raise, for a change of names with one present, and it is the classification of that change |
| Handler.HandlePresence | cogs/presenceChanges.py:29-53 | with the corrected start detection: nothing is delivered and no cooldown changes unless the member genuinely starts the game; on a genuine start each guild of `get_all_subscriptions` that no earlier `KeyError` cut off receives exactly the deliveries of its own dispatcher step, and the guilds after a raise receive none; only enabled subscriptions are notified; only the member's cooldowns for guilds sent to change, each to now; the handler raises exactly when some enabled guild passes the guards without a channel id, and then no debug line follows |
| WebInterface.AddLog | web_interface.py:26-35 | the buffer stays within 100 entries; the new entry is last; below 100 every old entry is kept in order; at 100 exactly the oldest is dropped |
| WebInterface.BufferKeepsNewest | web_interface.py:33-35 | after any number of entries the buffer holds exactly the newest 100 entries of everything logged, in order |
| WebInterface.TotalMembers | web_interface.py:56 | the sum fails exactly when some guild's member count is unknown |
| WebInterface.TotalMembersIsSumOfRows | web_interface.py:56-65 | when every count is known, the total equals the sum of the reported rows' counts |
| WebInterface.BotStatus | web_interface.py:48-68 | offline with an error without a bot; the error reply exactly when a member count is unknown; otherwise online exactly when ready, guild count and rows matching the guilds in order, and the total the sum of the rows |
| WebInterface.DebugMode | web_interface.py:117 | on exactly for the case variants of "true" and "yes" and for "1"; off when the variable is unset |

## Left out

- Discord, MongoDB, Flask and Socket.IO I/O: message embeds, `print` lines, the `new_log` emit, page templates and JSON rendering are not modelled. Replies are modelled by their meaning.
- Store failures: the `except` branches that turn a database error into `None`, `{}` or `[]` are not modelled. The store is an in-memory sequence that always answers.
- Time: `time.time()` floats are integer milliseconds passed in by the caller. Each dispatch reads one clock value, where the subscription manager reads the clock afresh for each guild.
- Lower-casing: `str.lower()` is modelled on ASCII letters only. Other characters are left unchanged.
- Guild ids: `int(guild_id)` cannot raise in the model, because stored guild ids are always decimal strings written by `subscribe`.
- Concurrency: the interleaving of concurrent presence events and commands is not modelled. Each event or command is one atomic step.
- Database selection (cogs/subscription_manager.py:21-29): the choice between the production and test databases is configuration. The unconditional override on line 29 has no logical effect on the model.
- `subscription_status`, `dm_status` and the single-member branch of `cooldown_status`: these only render stored state. They are covered by `Store.GetSubscription`, `Store.GetAllDmSubscriptionsForUser`, `Cooldowns.IsOnCooldown` and `Cooldowns.Remaining`.
- `on_tracked_game_activity` (cogs/presenceChanges.py:43-46): it only prints, and as written it is never reached, because the detection before it raises.
- Dashboard: the latency rounding and the `str(user)` rendering of the username are not modelled. The error text of a failed status is carried as the constant `SumTypeError`, the message of the `TypeError` that `sum` raises. `WebInterface.BotStatus` carries the user's display string as given.
- Cooldowns.ActiveCooldowns: the listing is a map from member to seconds. The order of the lines in the reply is not modelled.
- Dispatcher.NotifyGuild: the platform answers stay fixed for the whole dispatch. A channel or user that becomes resolvable mid-dispatch is not modelled.
- Commands.Subscribe: the `manage_guild` permission check (cogs/subscription_manager.py:158) is done by the command framework before the body runs and is not modelled; the contract describes the body once it runs.
- Commands.Unsubscribe: the same `manage_guild` permission check (cogs/subscription_manager.py:197) is not modelled; the contract describes the body once it runs.
- Cooldowns.ResetCooldown: the same `manage_guild` permission check (cogs/subscription_manager.py:372) is not modelled; the contract describes the body once it runs.
- Presence.OnPresenceUpdate: models the handler with the corrected start detection named in "## Findings"; as written the handler raises `TypeError` on every update (`Presence.OnPresenceUpdateAsWritten`).
- Handler.HandlePresence: models the end-to-end handling with the corrected start detection named in "## Findings"; as written no update reaches the dispatcher.
- Outside this model: the remaining files of the repository, including the bot start-up, the other cogs, the utilities and the dashboard's front end.

## Findings

| source | as written | input that shows it | evidently intended | confidence | as-written member | corrected member |
|---|---|---|---|---|---|---|
| cogs/presenceChanges.py:14 | `check_if_sea_of_thieves` is declared in the cog class without `self` or `@staticmethod`, but it is called as `self.check_if_sea_of_thieves(x)` (lines 35-36). The call passes two positional arguments to a function that takes at most one, so it raises `TypeError` on every presence update. | a member with no activity starts "Sea of Thieves" while the subscription manager is loaded | the predicate is a static helper: the start is detected and dispatched | high, not executed | Presence.AsWrittenMissesStart | Presence.DetectStart |

=== FILE: commands.dfy ===
/**
 The configuration commands of the subscription manager that write to the store:
 `subscribe`, `unsubscribe`, `dm_subscribe` and `dm_unsubscribe`. Each writes only when its
 guard holds and otherwise replies with an error and leaves the store as it was. Replies are
 modelled by their meaning; the embeds that carry them are not.
 */
module Commands {
  import opened Common
  import opened Store

  /** The channel a command came from: only a text channel can be subscribed. */
  datatype Target = TextChannel(id: ChannelId, name: string) | NotTextChannel

  datatype Reply =
    | Subscribed
    | NotATextChannel
    | Unsubscribed
    | NotSubscribed
    | GuildOnly
    | ServerNotSubscribed
    | DmSubscribed
    | DmNotSubscribed
    | DmUnsubscribed

  datatype GuildCommandResult = GuildCommandResult(docs: seq<GuildDoc>, reply: Reply)

  datatype DmCommandResult = DmCommandResult(dms: seq<DmDoc>, reply: Reply)

  /** The stored value of `enabled` is true (`subscription.get("enabled", False)`). */
  predicate Enabled(d: Option<GuildDoc>) {
    d.Some? && d.value.enabled == Some(true)
  }

  /**
   `subscribe [#channel]`: the channel argument, which the command framework only ever fills
   with a text channel (its id and name), or else the channel the command came from, which
   must be a text channel. The guild's document is then upserted with every field written,
   enabled and with start notifications on.
   */
  function Subscribe(docs: seq<GuildDoc>, g: GuildId, guildName: string, named: Option<(ChannelId, string)>, current: Target): (r: GuildCommandResult)
    ensures r.reply == Subscribed <==> named.Some? || current.TextChannel?
    ensures named.Some? ==>
      GetSubscription(r.docs, g) == Some(GuildDoc(g, Some(guildName), Some(named.value.0), Some(named.value.1), Some(true), Some(true)))
    ensures named.None? && current.TextChannel? ==>
      GetSubscription(r.docs, g) == Some(GuildDoc(g, Some(guildName), Some(current.id), Some(current.name), Some(true), Some(true)))
    ensures r.reply == Subscribed ==> forall h :: h != g ==> GetSubscription(r.docs, h) == GetSubscription(docs, h)
    ensures r.reply != Subscribed ==> r.reply == NotATextChannel && r.docs == docs
  {
    var target := if named.Some? then TextChannel(named.value.0, named.value.1) else current;
    match target
    case NotTextChannel => GuildCommandResult(docs, NotATextChannel)
    case TextChannel(id, name) =>
      var p := GuildPatch(Some(guildName), Some(id), Some(name), Some(true), Some(true));
      GuildCommandResult(SaveSubscription(docs, g, p), Subscribed)
  }

  /**
   `unsubscribe`: only a guild whose document exists and is enabled is written, and then the
   document is written back whole with `enabled` set to false.
   */
  function Unsubscribe(docs: seq<GuildDoc>, g: GuildId): (r: GuildCommandResult)
    ensures r.reply == Unsubscribed <==> Enabled(GetSubscription(docs, g))
    ensures r.reply == Unsubscribed ==>
      var d := GetSubscription(docs, g).value;
      GetSubscription(r.docs, g) == Some(d.(enabled := Some(false)))
    ensures r.reply == Unsubscribed ==> forall h :: h != g ==> GetSubscription(r.docs, h) == GetSubscription(docs, h)
    ensures r.reply != Unsubscribed ==> r.reply == NotSubscribed && r.docs == docs
  {
    var sub := GetSubscription(docs, g);
    if Enabled(sub) then
      var p := AsPatch(sub.value).(enabled := Some(false));
      GuildCommandResult(SaveSubscription(docs, g, p), Unsubscribed)
    else
      GuildCommandResult(docs, NotSubscribed)
  }

  /**
   `dm_subscribe`: only inside a guild, and only when that guild's own subscription exists
   and is enabled, the caller's DM document is upserted as enabled.
   */
  function DmSubscribe(docs: seq<GuildDoc>, dms: seq<DmDoc>, guild: Option<GuildId>, u: MemberId): (r: DmCommandResult)
    ensures r.reply == DmSubscribed <==> guild.Some? && Enabled(GetSubscription(docs, guild.value))
    ensures r.reply == DmSubscribed ==> GetDmSubscription(r.dms, u, guild.value) == Some(DmDoc(u, guild.value, true))
    ensures r.reply == DmSubscribed ==>
      forall v, h :: (v, h) != (u, guild.value) ==> GetDmSubscription(r.dms, v, h) == GetDmSubscription(dms, v, h)
    ensures r.reply == GuildOnly <==> guild.None?
    ensures guild.Some? && !Enabled(GetSubscription(docs, guild.value)) ==> r.reply == ServerNotSubscribed
    ensures r.reply != DmSubscribed ==> r.dms == dms
  {
    match guild
    case None => DmCommandResult(dms, GuildOnly)
    case Some(g) =>
      if !Enabled(GetSubscription(docs, g)) then DmCommandResult(dms, ServerNotSubscribed)
      else DmCommandResult(SaveDmSubscription(dms, u, g, true), DmSubscribed)
  }

  /**
   `dm_unsubscribe`: only inside a guild, and only for an existing enabled DM document, the
   caller's DM document is upserted as disabled.
   */
  function DmUnsubscribe(dms: seq<DmDoc>, guild: Option<GuildId>, u: MemberId): (r: DmCommandResult)
    ensures r.reply == DmUnsubscribed <==>
      guild.Some? && GetDmSubscription(dms, u, guild.value) == Some(DmDoc(u, guild.value, true))
    ensures r.reply == DmUnsubscribed ==> GetDmSubscription(r.dms, u, guild.value) == Some(DmDoc(u, guild.value, false))
    ensures r.reply == DmUnsubscribed ==>
      forall v, h :: (v, h) != (u, guild.value) ==> GetDmSubscription(r.dms, v, h) == GetDmSubscription(dms, v, h)
    ensures r.reply == GuildOnly <==> guild.None?
    ensures guild.Some? && GetDmSubscription(dms, u, guild.value) != Some(DmDoc(u, guild.value, true)) ==>
      r.reply == DmNotSubscribed
    ensures r.reply != DmUnsubscribed ==> r.dms == dms
  {
    match guild
    case None => DmCommandResult(dms, GuildOnly)
    case Some(g) =>
      var dm := GetDmSubscription(dms, u, g);
      if !(dm.Some? && dm.value.enabled) then DmCommandResult(dms, DmNotSubscribed)
      else DmCommandResult(SaveDmSubscription(dms, u, g, false), DmUnsubscribed)
  }

  /** A successful `subscribe` puts the guild among the enabled subscriptions the dispatcher reads. */
  lemma SubscribeEnables(docs: seq<GuildDoc>, g: GuildId, guildName: string, named: Option<(ChannelId, string)>, current: Target)
    ensures
      var r := Subscribe(docs, g, guildName, named, current);
      r.reply == Subscribed ==> HasKey(GetAllSubscriptions(r.docs), g)
  {
    var r := Subscribe(docs, g, guildName, named, current);
    if r.reply == Subscribed {
      var d := GetSubscription(r.docs, g).value;
      var i :| 0 <= i < |r.docs| && r.docs[i] == d;
      assert HasEnabledDoc(r.docs, g);
    }
  }

  /**
   While each guild has one document, a successful `unsubscribe` removes the guild from the
   enabled subscriptions, so its channel and its DM subscribers are no longer notified.
   */
  lemma UnsubscribeDisables(docs: seq<GuildDoc>, g: GuildId)
    requires UniqueKeys(docs, GuildKey)
    ensures
      var r := Unsubscribe(docs, g);
      r.reply == Unsubscribed ==> !HasKey(GetAllSubscriptions(r.docs), g)
  {
    var r := Unsubscribe(docs, g);
    if r.reply == Unsubscribed {
      var i := FindFirst(r.docs, GuildKey, g).value;
      assert r.docs[i].enabled == Some(false);
      assert UniqueKeys(r.docs, GuildKey);
      forall j | 0 <= j < |r.docs| && r.docs[j].guildId == g
        ensures r.docs[j].enabled != Some(true)
      {
        assert j == i;
      }
      assert !HasEnabledDoc(r.docs, g);
    }
  }

  /**
   While each (user, guild) pair has one DM document, `dm_subscribe` followed by
   `dm_unsubscribe` in a subscribed guild first lists the user among the guild's DM
   subscribers and then takes them out again, leaving every other pair as it was.
   */
  lemma DmSubscribeThenUnsubscribe(docs: seq<GuildDoc>, dms: seq<DmDoc>, g: GuildId, u: MemberId)
    requires UniqueKeys(dms, DmKey)
    requires Enabled(GetSubscription(docs, g))
    ensures
      var s := DmSubscribe(docs, dms, Some(g), u);
      var t := DmUnsubscribe(s.dms, Some(g), u);
      && s.reply == DmSubscribed && u in GetDmSubscribers(s.dms, g)
      && t.reply == DmUnsubscribed && u !in GetDmSubscribers(t.dms, g)
      && forall v, h :: (v, h) != (u, g) ==> GetDmSubscription(t.dms, v, h) == GetDmSubscription(dms, v, h)
  {
  }
}

=== FILE: common.dfy ===
/**
 Shared vocabulary of the GrebBot model: optional values, the identifier types of the chat
 platform, Python truthiness of optional strings, and ASCII case mapping.
 */
module Common {

  /** A value that may be absent (Python `None`, a missing document field, a failed lookup). */
  datatype Option<+T> = None | Some(value: T) {

    /** The value, or `default` when absent (Python `dict.get(key, default)`). */
    function GetOr(default: T): T {
      match this
      case Some(v) => v
      case None => default
    }
  }

  /** Platform user ids; a guild member and the same person as a user share one id. */
  type MemberId = int

  /** Guild ids are stored as the decimal string of the platform id. */
  type GuildId = string

  type ChannelId = int

  /** The activity type the presence cog passes to the dispatcher for a game start. */
  const StartActivity: string := "start"

  /** Python truthiness of an optional string: `None` and `""` are both false. */
  predicate Truthy(s: Option<string>) {
    s.Some? && s.value != ""
  }

  predicate IsUpper(c: char) {
    'A' <= c <= 'Z'
  }

  predicate IsLower(c: char) {
    'a' <= c <= 'z'
  }

  function LowerChar(c: char): char {
    if IsUpper(c) then (c as int + 32) as char else c
  }

  function UpperChar(c: char): char {
    if IsLower(c) then (c as int - 32) as char else c
  }

  /** `str.lower()`, restricted to the ASCII letters (see README). */
  function Lower(s: string): (r: string)
    ensures |r| == |s|
    ensures forall i :: 0 <= i < |s| ==> r[i] == LowerChar(s[i])
  {
    if s == [] then [] else [LowerChar(s[0])] + Lower(s[1..])
  }

  /** A word containing no upper-case letter, like every literal the bot compares against. */
  predicate HasNoUpper(w: string) {
    forall i :: 0 <= i < |w| ==> !IsUpper(w[i])
  }

  /** `s` spells `w` with any of its letters possibly in upper case. */
  predicate CaseVariantOf(s: string, w: string) {
    |s| == |w| && forall i :: 0 <= i < |s| ==> s[i] == w[i] || s[i] == UpperChar(w[i])
  }

  lemma LowerCharMatches(c: char, d: char)
    requires !IsUpper(d)
    ensures LowerChar(c) == d <==> c == d || c == UpperChar(d)
  {
  }

  /** Comparing `s.lower()` with a lower-case word accepts exactly the case variants of that word. */
  lemma LowerEqualsIffCaseVariant(s: string, w: string)
    requires HasNoUpper(w)
    ensures Lower(s) == w <==> CaseVariantOf(s, w)
  {
    var l := Lower(s);
    if |s| == |w| {
      forall i | 0 <= i < |s|
        ensures l[i] == w[i] <==> s[i] == w[i] || s[i] == UpperChar(w[i])
      {
        LowerCharMatches(s[i], w[i]);
      }
      if CaseVariantOf(s, w) {
        assert forall i :: 0 <= i < |l| ==> l[i] == w[i];
      }
    }
  }
}

=== FILE: cooldowns.dfy ===
/**
 The per-(member, guild) notification cooldown of the subscription manager: a nested map from
 member to guild to the time of the last channel notification, the 120-second window test,
 the remaining-seconds report, the update after a notification, the administrative reset and
 the `cooldown_status` listing. Timestamps are integer milliseconds standing in for the
 floating-point `time.time()` readings of the bot; the clock is passed in as `now`.
 */
module Cooldowns {
  import opened Common

  /** Clock ticks per second. */
  const Second: int := 1000

  /** The cooldown window: 120 seconds. */
  const CooldownDuration: int := 120 * Second

  type Time = int

  /** member id -> guild id -> time of the last channel notification. */
  type CooldownMap = map<MemberId, map<GuildId, Time>>

  /** The flat view of the nested map: the last notification time of one (member, guild) pair. */
  function LastNotified(cd: CooldownMap, m: MemberId, g: GuildId): Option<Time> {
    if m in cd && g in cd[m] then Some(cd[m][g]) else None
  }

  /** The member was notified in the guild less than the cooldown window ago (a strict test). */
  function IsOnCooldown(cd: CooldownMap, m: MemberId, g: GuildId, now: Time): (r: bool)
    ensures r <==> LastNotified(cd, m, g).Some? && now - LastNotified(cd, m, g).value < CooldownDuration
  {
    if m !in cd then false
    else if g !in cd[m] then false
    else now - cd[m][g] < CooldownDuration
  }

  /** Python's `int()` of a quotient: truncation toward zero, unlike Dafny's Euclidean `/`. */
  function TruncDiv(a: int, b: int): int
    requires b > 0
  {
    if a >= 0 then a / b else -((-a) / b)
  }

  function Max(a: int, b: int): int {
    if a >= b then a else b
  }

  /**
   Whole seconds left in the window: 0 when the pair is not on cooldown, otherwise the
   remaining time truncated to seconds. It stays within 0..120 unless the clock has gone
   backwards past the recorded time.
   */
  function Remaining(cd: CooldownMap, m: MemberId, g: GuildId, now: Time): (r: int)
    ensures r >= 0
    ensures !IsOnCooldown(cd, m, g, now) ==> r == 0
    ensures IsOnCooldown(cd, m, g, now) ==>
      var left := LastNotified(cd, m, g).value + CooldownDuration - now;
      r * Second <= left < (r + 1) * Second
    ensures LastNotified(cd, m, g).Some? && LastNotified(cd, m, g).value <= now ==> r <= 120
  {
    if !IsOnCooldown(cd, m, g, now) then 0
    else
      var left := CooldownDuration - (now - cd[m][g]);
      Max(0, TruncDiv(left, Second))
  }

  /** Record a notification of member m in guild g at time now, creating the inner map if needed. */
  function Update(cd: CooldownMap, m: MemberId, g: GuildId, now: Time): (r: CooldownMap)
    ensures LastNotified(r, m, g) == Some(now)
    ensures forall m', g' :: (m', g') != (m, g) ==> LastNotified(r, m', g') == LastNotified(cd, m', g')
  {
    var inner := if m in cd then cd[m] else map[];
    cd[m := inner[g := now]]
  }

  datatype ResetReply = CooldownCleared | WasNotOnCooldown

  datatype ResetResult = ResetResult(cooldowns: CooldownMap, reply: ResetReply)

  /**
   The `reset_cooldown` command: delete the (member, guild) entry when one exists, whether or
   not it is still inside the window; otherwise change nothing and say so.
   */
  function ResetCooldown(cd: CooldownMap, m: MemberId, g: GuildId): (r: ResetResult)
    ensures r.reply == CooldownCleared <==> LastNotified(cd, m, g).Some?
    ensures LastNotified(r.cooldowns, m, g) == None
    ensures forall now :: !IsOnCooldown(r.cooldowns, m, g, now)
    ensures forall m', g' :: (m', g') != (m, g) ==> LastNotified(r.cooldowns, m', g') == LastNotified(cd, m', g')
    ensures r.reply == WasNotOnCooldown ==> r.cooldowns == cd
  {
    if m in cd && g in cd[m] then
      ResetResult(cd[m := cd[m] - {g}], CooldownCleared)
    else
      ResetResult(cd, WasNotOnCooldown)
  }

  /**
   The guild-wide `cooldown_status` listing: every member with an entry in guild g whose
   reported remaining time is positive and who resolves in the guild's roster, with that time.
   A member in the last second of the window is on cooldown but reports 0 and is not listed.
   */
  function ActiveCooldowns(cd: CooldownMap, g: GuildId, now: Time, roster: set<MemberId>): (r: map<MemberId, int>)
    ensures forall m :: m in r <==>
      m in roster && IsOnCooldown(cd, m, g, now) && LastNotified(cd, m, g).value + CooldownDuration - now >= Second
    ensures forall m :: m in r ==> r[m] == Remaining(cd, m, g, now) && 1 <= r[m]
  {
    map m | m in cd.Keys && g in cd[m] && Remaining(cd, m, g, now) > 0 && m in roster :: Remaining(cd, m, g, now)
  }

  /** A second update of the same pair replaces the first instead of accumulating. */
  lemma UpdateReplaces(cd: CooldownMap, m: MemberId, g: GuildId, t1: Time, t2: Time)
    ensures Update(Update(cd, m, g, t1), m, g, t2) == Update(cd, m, g, t2)
  {
    var inner := if m in cd then cd[m] else map[];
    assert inner[g := t1][g := t2] == inner[g := t2];
  }

  /** After an update at time t the pair is on cooldown exactly until t + 120 s, with 120 s reported at t. */
  lemma UpdateOpensWindow(cd: CooldownMap, m: MemberId, g: GuildId, t: Time, now: Time)
    ensures IsOnCooldown(Update(cd, m, g, t), m, g, now) <==> now < t + CooldownDuration
    ensures Remaining(Update(cd, m, g, t), m, g, t) == 120
  {
  }

  /** Between two updates the remaining time never goes up as the clock advances. */
  lemma RemainingNonIncreasing(cd: CooldownMap, m: MemberId, g: GuildId, now1: Time, now2: Time)
    requires now1 <= now2
    ensures Remaining(cd, m, g, now2) <= Remaining(cd, m, g, now1)
  {
    if IsOnCooldown(cd, m, g, now2) {
      var r1, r2 := Remaining(cd, m, g, now1), Remaining(cd, m, g, now2);
      var last := LastNotified(cd, m, g).value;
      assert r2 * Second <= last + CooldownDuration - now2 <= last + CooldownDuration - now1 < (r1 + 1) * Second;
    }
  }
}

=== FILE: dispatcher.dfy ===
/**
 `notify_sea_of_thieves_activity`: the fan-out of one activity event of a member to every
 enabled guild subscription. The platform lookups (guild rosters, channels, users) and the
 deliveries that raise are inputs; the dispatcher returns the deliveries it attempts, in
 order, with the cooldown map it leaves behind. A delivery that raises is recorded as a
 failed effect: a failing channel send skips the guild's DM fan-out and its cooldown update,
 a failing DM skips only that recipient.
 */
module Dispatcher {
  import opened Common
  import opened Store
  import opened Cooldowns

  /** What the platform resolves while the event is handled, and which deliveries raise. */
  datatype Platform = Platform(
    rosters: map<GuildId, set<MemberId>>,
    channels: set<ChannelId>,
    users: set<MemberId>,
    failingChannels: set<ChannelId>,
    failingUsers: set<MemberId>)

  /** The member the event is about, the activity type passed by the caller, and the clock. */
  datatype Event = Event(member: MemberId, activity: string, now: Time)

  datatype Effect =
    | ChannelSent(guild: GuildId, channel: ChannelId)
    | ChannelFailed(guild: GuildId, channel: ChannelId)
    | DmSent(user: MemberId, guild: GuildId)
    | DmFailed(user: MemberId, guild: GuildId)

  /**
   The attempted deliveries, the cooldown map afterwards, and whether the dispatch stopped
   early on an uncaught `KeyError` (an enabled document without `channel_id`).
   */
  datatype Outcome = Outcome(effects: seq<Effect>, cooldowns: CooldownMap, aborted: bool)

  /** `sub.get("notify_start", True)`. */
  predicate NotifyStart(sub: GuildDoc) {
    sub.notifyStart.GetOr(true)
  }

  /** The checks made before the channel id is read: enabled, guild and member resolve, start notifications on, no cooldown. */
  predicate PassesGuards(g: GuildId, sub: GuildDoc, p: Platform, ev: Event, cd: CooldownMap) {
    && sub.enabled == Some(true)
    && g in p.rosters
    && ev.member in p.rosters[g]
    && (ev.activity == StartActivity ==> NotifyStart(sub))
    && !IsOnCooldown(cd, ev.member, g, ev.now)
  }

  /** `sub["channel_id"]` is read and missing. */
  predicate RaisesKeyError(g: GuildId, sub: GuildDoc, p: Platform, ev: Event, cd: CooldownMap) {
    PassesGuards(g, sub, p, ev, cd) && sub.channelId.None?
  }

  /** A channel send is attempted: the guards pass, the channel resolves, and the event is a start. */
  predicate Attempts(g: GuildId, sub: GuildDoc, p: Platform, ev: Event, cd: CooldownMap) {
    && PassesGuards(g, sub, p, ev, cd)
    && sub.channelId.Some?
    && sub.channelId.value in p.channels
    && ev.activity == StartActivity
  }

  /** The channel send is attempted and succeeds. */
  predicate Delivers(g: GuildId, sub: GuildDoc, p: Platform, ev: Event, cd: CooldownMap) {
    Attempts(g, sub, p, ev, cd) && sub.channelId.value !in p.failingChannels
  }

  /** The DM loop: every listed subscriber who resolves and is not the player gets one attempt; failures are swallowed. */
  function DmFanOut(subscribers: seq<MemberId>, g: GuildId, player: MemberId, p: Platform): (r: seq<Effect>)
    ensures forall e :: e in r ==> e.guild == g && (e.DmSent? || e.DmFailed?)
    ensures forall u :: DmSent(u, g) in r <==> u in subscribers && u in p.users && u != player && u !in p.failingUsers
    ensures forall u :: DmFailed(u, g) in r <==> u in subscribers && u in p.users && u != player && u in p.failingUsers
    ensures NoDuplicates(subscribers) ==> NoDuplicates(r)
  {
    if subscribers == [] then []
    else
      var u := subscribers[0];
      var here :=
        if u in p.users && u != player then
          if u in p.failingUsers then [DmFailed(u, g)] else [DmSent(u, g)]
        else [];
      var rest := DmFanOut(subscribers[1..], g, player, p);
      assert forall v :: v in subscribers <==> v == u || v in subscribers[1..] by {
        assert subscribers == [u] + subscribers[1..];
      }
      assert NoDuplicates(subscribers) ==> NoDuplicates(subscribers[1..]) && u !in subscribers[1..] by {
        if NoDuplicates(subscribers) {
          forall j | 0 <= j < |subscribers[1..]|
            ensures subscribers[1..][j] != u
          {
            assert subscribers[j + 1] != subscribers[0];
          }
        }
      }
      here + rest
  }

  /**
   One guild of the loop. Nothing happens unless the guards pass; a missing channel id
   aborts; a send is attempted only for a start event to a resolvable channel. Only a
   successful send is followed by the DM fan-out to the guild's enabled DM subscribers and by
   the update of this (member, guild) cooldown; no other cooldown entry changes.
   */
  function NotifyGuild(g: GuildId, sub: GuildDoc, dms: seq<DmDoc>, p: Platform, ev: Event, cd: CooldownMap): (r: Outcome)
    ensures r.aborted <==> RaisesKeyError(g, sub, p, ev, cd)
    ensures forall e :: e in r.effects ==> e.guild == g
    ensures forall c :: ChannelSent(g, c) in r.effects <==> Delivers(g, sub, p, ev, cd) && sub.channelId == Some(c)
    ensures forall c :: ChannelFailed(g, c) in r.effects <==>
      Attempts(g, sub, p, ev, cd) && !Delivers(g, sub, p, ev, cd) && sub.channelId == Some(c)
    ensures forall u :: DmSent(u, g) in r.effects <==>
      Delivers(g, sub, p, ev, cd) && IsDmSubscriber(dms, u, g) && u in p.users && u != ev.member && u !in p.failingUsers
    ensures forall u :: DmFailed(u, g) in r.effects <==>
      Delivers(g, sub, p, ev, cd) && IsDmSubscriber(dms, u, g) && u in p.users && u != ev.member && u in p.failingUsers
    ensures LastNotified(r.cooldowns, ev.member, g) ==
      if Delivers(g, sub, p, ev, cd) then Some(ev.now) else LastNotified(cd, ev.member, g)
    ensures forall m, h :: (m, h) != (ev.member, g) ==> LastNotified(r.cooldowns, m, h) == LastNotified(cd, m, h)
    ensures UniqueKeys(dms, DmKey) ==> NoDuplicates(r.effects)
  {
    if !PassesGuards(g, sub, p, ev, cd) then Outcome([], cd, false)
    else if sub.channelId.None? then Outcome([], cd, true)
    else
      var c := sub.channelId.value;
      if c !in p.channels || ev.activity != StartActivity then Outcome([], cd, false)
      else if c in p.failingChannels then Outcome([ChannelFailed(g, c)], cd, false)
      else
        var dmEffects := DmFanOut(GetDmSubscribers(dms, g), g, ev.member, p);
        var effects := [ChannelSent(g, c)] + dmEffects;
        assert forall e :: e in effects <==> e == ChannelSent(g, c) || e in dmEffects;
        Outcome(effects, Update(cd, ev.member, g, ev.now), false)
  }

  /** The effects concerning guild g, in order. */
  function EffectsFor(effects: seq<Effect>, g: GuildId): (r: seq<Effect>)
    ensures forall e :: e in r <==> e in effects && e.guild == g
  {
    if effects == [] then []
    else
      assert forall e :: e in effects <==> e == effects[0] || e in effects[1..] by {
        assert effects == [effects[0]] + effects[1..];
      }
      (if effects[0].guild == g then [effects[0]] else []) + EffectsFor(effects[1..], g)
  }

  lemma {:induction false} EffectsForConcat(a: seq<Effect>, b: seq<Effect>, g: GuildId)
    ensures EffectsFor(a + b, g) == EffectsFor(a, g) + EffectsFor(b, g)
  {
    if a == [] {
      assert a + b == b;
    } else {
      assert (a + b)[0] == a[0];
      assert (a + b)[1..] == a[1..] + b;
      EffectsForConcat(a[1..], b, g);
    }
  }

  /** A channel notification for guild g was delivered. */
  predicate SentTo(effects: seq<Effect>, g: GuildId) {
    exists e :: e in effects && e.ChannelSent? && e.guild == g
  }

  /** The loop over the dict of enabled subscriptions, in its order, threading the cooldown map. */
  function NotifyEach(entries: seq<(GuildId, GuildDoc)>, dms: seq<DmDoc>, p: Platform, ev: Event, cd: CooldownMap): (r: Outcome)
    ensures forall e :: e in r.effects ==> HasKey(entries, e.guild)
  {
    if entries == [] then Outcome([], cd, false)
    else
      var step := NotifyGuild(entries[0].0, entries[0].1, dms, p, ev, cd);
      if step.aborted then step
      else
        var rest := NotifyEach(entries[1..], dms, p, ev, step.cooldowns);
        assert forall g :: HasKey(entries[1..], g) ==> HasKey(entries, g) by {
          forall g | HasKey(entries[1..], g)
            ensures HasKey(entries, g)
          {
            var i :| 0 <= i < |entries[1..]| && entries[1..][i].0 == g;
            assert entries[i + 1].0 == g;
          }
        }
        assert HasKey(entries, entries[0].0);
        Outcome(step.effects + rest.effects, rest.cooldowns, rest.aborted)
  }

  /** `notify_sea_of_thieves_activity`: the loop over `get_all_subscriptions`. */
  function Notify(docs: seq<GuildDoc>, dms: seq<DmDoc>, p: Platform, ev: Event, cd: CooldownMap): (r: Outcome)
    ensures forall e :: e in r.effects ==> HasEnabledDoc(docs, e.guild)
  {
    NotifyEach(GetAllSubscriptions(docs), dms, p, ev, cd)
  }

  /** A guild's step depends on the cooldown map only through that guild's own entry for the member. */
  lemma NotifyGuildLocal(g: GuildId, sub: GuildDoc, dms: seq<DmDoc>, p: Platform, ev: Event, cd1: CooldownMap, cd2: CooldownMap)
    requires LastNotified(cd1, ev.member, g) == LastNotified(cd2, ev.member, g)
    ensures NotifyGuild(g, sub, dms, p, ev, cd1).effects == NotifyGuild(g, sub, dms, p, ev, cd2).effects
    ensures NotifyGuild(g, sub, dms, p, ev, cd1).aborted == NotifyGuild(g, sub, dms, p, ev, cd2).aborted
  {
    assert IsOnCooldown(cd1, ev.member, g, ev.now) == IsOnCooldown(cd2, ev.member, g, ev.now);
  }

  /** The guilds after the first are not the first guild, and the first guild's step leaves their cooldown entries alone. */
  lemma FirstStepLeavesRest(entries: seq<(GuildId, GuildDoc)>, dms: seq<DmDoc>, p: Platform, ev: Event, cd: CooldownMap)
    requires UniqueKeys(entries, EntryKey)
    requires entries != []
    ensures UniqueKeys(entries[1..], EntryKey)
    ensures !HasKey(entries[1..], entries[0].0)
    ensures
      var step := NotifyGuild(entries[0].0, entries[0].1, dms, p, ev, cd);
      forall j :: 0 <= j < |entries[1..]| ==>
        LastNotified(step.cooldowns, ev.member, entries[1..][j].0) == LastNotified(cd, ev.member, entries[1..][j].0)
  {
    var tail := entries[1..];
    forall j | 0 <= j < |tail|
      ensures tail[j].0 != entries[0].0
    {
      assert tail[j] == entries[j + 1];
    }
  }

  /** After a first step that did not raise, the later guilds raise against the new cooldowns exactly as against the old. */
  lemma TailRaisesAlike(entries: seq<(GuildId, GuildDoc)>, dms: seq<DmDoc>, p: Platform, ev: Event, cd: CooldownMap)
    requires UniqueKeys(entries, EntryKey)
    requires entries != []
    ensures
      var step := NotifyGuild(entries[0].0, entries[0].1, dms, p, ev, cd);
      forall j :: 0 <= j < |entries| - 1 ==>
        RaisesKeyError(entries[1..][j].0, entries[1..][j].1, p, ev, step.cooldowns) == RaisesKeyError(entries[j + 1].0, entries[j + 1].1, p, ev, cd)
  {
    var step := NotifyGuild(entries[0].0, entries[0].1, dms, p, ev, cd);
    var tail := entries[1..];
    FirstStepLeavesRest(entries, dms, p, ev, cd);
    forall j | 0 <= j < |tail|
      ensures RaisesKeyError(tail[j].0, tail[j].1, p, ev, step.cooldowns) == RaisesKeyError(entries[j + 1].0, entries[j + 1].1, p, ev, cd)
    {
      assert tail[j] == entries[j + 1];
      NotifyGuildLocal(tail[j].0, tail[j].1, dms, p, ev, cd, step.cooldowns);
    }
  }

  /**
   A raise cannot take back what was already sent: a guild that no earlier guild's `KeyError`
   cut off has received exactly its own step's deliveries, judged against the cooldowns the
   event found.
   */
  lemma {:induction false} NotifyEachPrefix(entries: seq<(GuildId, GuildDoc)>, dms: seq<DmDoc>, p: Platform, ev: Event, cd: CooldownMap, k: nat)
    requires UniqueKeys(entries, EntryKey)
    requires k < |entries|
    requires forall j :: 0 <= j < k ==> !RaisesKeyError(entries[j].0, entries[j].1, p, ev, cd)
    ensures EffectsFor(NotifyEach(entries, dms, p, ev, cd).effects, entries[k].0) == NotifyGuild(entries[k].0, entries[k].1, dms, p, ev, cd).effects
  {
    var r := NotifyEach(entries, dms, p, ev, cd);
    var g0, s0 := entries[0].0, entries[0].1;
    var step := NotifyGuild(g0, s0, dms, p, ev, cd);
    var g := entries[k].0;
    if step.aborted {
      assert k == 0;
      assert r == step;
      EffectsForAll(step.effects, g0);
    } else {
      var tail := entries[1..];
      FirstStepLeavesRest(entries, dms, p, ev, cd);
      var rest := NotifyEach(tail, dms, p, ev, step.cooldowns);
      assert r.effects == step.effects + rest.effects;
      EffectsForConcat(step.effects, rest.effects, g);
      if k == 0 {
        EffectsForAll(step.effects, g0);
        EffectsForNone(rest.effects, g0);
      } else {
        assert tail[k - 1] == entries[k];
        TailRaisesAlike(entries, dms, p, ev, cd);
        NotifyEachPrefix(tail, dms, p, ev, step.cooldowns, k - 1);
        EffectsForNone(step.effects, g);
        NotifyGuildLocal(g, entries[k].1, dms, p, ev, cd, step.cooldowns);
      }
    }
  }

  /** A guild after the first guild whose step raises receives nothing. */
  lemma {:induction false} NotifyEachCutOff(entries: seq<(GuildId, GuildDoc)>, dms: seq<DmDoc>, p: Platform, ev: Event, cd: CooldownMap, j: nat, k: nat)
    requires UniqueKeys(entries, EntryKey)
    requires j < k < |entries|
    requires RaisesKeyError(entries[j].0, entries[j].1, p, ev, cd)
    ensures EffectsFor(NotifyEach(entries, dms, p, ev, cd).effects, entries[k].0) == []
  {
    var r := NotifyEach(entries, dms, p, ev, cd);
    var g0, s0 := entries[0].0, entries[0].1;
    var step := NotifyGuild(g0, s0, dms, p, ev, cd);
    var g := entries[k].0;
    if step.aborted {
      assert r.effects == [];
    } else {
      var tail := entries[1..];
      FirstStepLeavesRest(entries, dms, p, ev, cd);
      var rest := NotifyEach(tail, dms, p, ev, step.cooldowns);
      assert r.effects == step.effects + rest.effects;
      assert j != 0;
      assert tail[k - 1] == entries[k];
      TailRaisesAlike(entries, dms, p, ev, cd);
      NotifyEachCutOff(tail, dms, p, ev, step.cooldowns, j - 1, k - 1);
      EffectsForConcat(step.effects, rest.effects, g);
      EffectsForNone(step.effects, g);
    }
  }

  /** The loop stops early exactly when some enabled guild passes the guards without a channel id. */
  lemma {:induction false} NotifyEachAborts(entries: seq<(GuildId, GuildDoc)>, dms: seq<DmDoc>, p: Platform, ev: Event, cd: CooldownMap)
    requires UniqueKeys(entries, EntryKey)
    ensures NotifyEach(entries, dms, p, ev, cd).aborted <==>
      exists i :: 0 <= i < |entries| && RaisesKeyError(entries[i].0, entries[i].1, p, ev, cd)
  {
    if entries != [] {
      var g0, s0 := entries[0].0, entries[0].1;
      var step := NotifyGuild(g0, s0, dms, p, ev, cd);
      if !step.aborted {
        var tail := entries[1..];
        FirstStepLeavesRest(entries, dms, p, ev, cd);
        NotifyEachAborts(tail, dms, p, ev, step.cooldowns);
        forall j | 0 <= j < |tail|
          ensures RaisesKeyError(tail[j].0, tail[j].1, p, ev, step.cooldowns) == RaisesKeyError(entries[j + 1].0, entries[j + 1].1, p, ev, cd)
        {
          assert tail[j] == entries[j + 1];
          NotifyGuildLocal(tail[j].0, tail[j].1, dms, p, ev, cd, step.cooldowns);
        }
        assert !RaisesKeyError(g0, s0, p, ev, cd);
        assert (exists i :: 0 <= i < |entries| && RaisesKeyError(entries[i].0, entries[i].1, p, ev, cd))
          ==> (exists j :: 0 <= j < |tail| && RaisesKeyError(tail[j].0, tail[j].1, p, ev, step.cooldowns)) by {
          if exists i :: 0 <= i < |entries| && RaisesKeyError(entries[i].0, entries[i].1, p, ev, cd) {
            var i :| 0 <= i < |entries| && RaisesKeyError(entries[i].0, entries[i].1, p, ev, cd);
            assert i != 0;
            assert RaisesKeyError(tail[i - 1].0, tail[i - 1].1, p, ev, step.cooldowns);
          }
        }
      }
    }
  }

  /** The only cooldown entries that change are the member's entries for the guilds whose channel send succeeded, each set to now. */
  lemma {:induction false} NotifyEachCooldowns(entries: seq<(GuildId, GuildDoc)>, dms: seq<DmDoc>, p: Platform, ev: Event, cd: CooldownMap)
    requires UniqueKeys(entries, EntryKey)
    ensures
      var r := NotifyEach(entries, dms, p, ev, cd);
      forall m, h :: LastNotified(r.cooldowns, m, h) ==
        if m == ev.member && SentTo(r.effects, h) then Some(ev.now) else LastNotified(cd, m, h)
  {
    var r := NotifyEach(entries, dms, p, ev, cd);
    if entries != [] {
      var g0, s0 := entries[0].0, entries[0].1;
      var step := NotifyGuild(g0, s0, dms, p, ev, cd);
      if step.aborted {
        assert r.effects == [];
      } else {
        var tail := entries[1..];
        FirstStepLeavesRest(entries, dms, p, ev, cd);
        var rest := NotifyEach(tail, dms, p, ev, step.cooldowns);
        NotifyEachCooldowns(tail, dms, p, ev, step.cooldowns);
        assert r.effects == step.effects + rest.effects;
        forall m, h
          ensures LastNotified(r.cooldowns, m, h) ==
            if m == ev.member && SentTo(r.effects, h) then Some(ev.now) else LastNotified(cd, m, h)
        {
          assert SentTo(r.effects, h) <==> SentTo(step.effects, h) || SentTo(rest.effects, h) by {
            if SentTo(r.effects, h) {
              var e :| e in r.effects && e.ChannelSent? && e.guild == h;
            }
          }
          assert SentTo(step.effects, h) <==> h == g0 && Delivers(g0, s0, p, ev, cd) by {
            if SentTo(step.effects, h) {
              var e :| e in step.effects && e.ChannelSent? && e.guild == h;
              assert ChannelSent(g0, e.channel) in step.effects;
            }
            if h == g0 && Delivers(g0, s0, p, ev, cd) {
              assert ChannelSent(g0, s0.channelId.value) in step.effects;
            }
          }
          if h == g0 {
            assert !SentTo(rest.effects, g0);
          }
        }
      }
    }
  }

  /**
   The dispatcher as a whole: every guild is handled independently against the cooldowns as
   they were when the event arrived; a guild that no earlier guild's `KeyError` cut off gets
   exactly its own step's deliveries and a guild after the first raising one gets nothing; no
   guild without an enabled subscription is touched; the dispatch stops early exactly when
   some guild raises; and only the member's cooldowns for the guilds whose channel send
   succeeded change, each to now.
   */
  lemma NotifyIndependent(docs: seq<GuildDoc>, dms: seq<DmDoc>, p: Platform, ev: Event, cd: CooldownMap)
    ensures
      var entries := GetAllSubscriptions(docs);
      var r := Notify(docs, dms, p, ev, cd);
      && (forall k :: 0 <= k < |entries| && (forall j :: 0 <= j < k ==> !RaisesKeyError(entries[j].0, entries[j].1, p, ev, cd)) ==>
            EffectsFor(r.effects, entries[k].0) == NotifyGuild(entries[k].0, entries[k].1, dms, p, ev, cd).effects)
      && (forall j, k :: 0 <= j < k < |entries| && RaisesKeyError(entries[j].0, entries[j].1, p, ev, cd) ==>
            EffectsFor(r.effects, entries[k].0) == [])
      && (forall g :: !HasEnabledDoc(docs, g) ==> EffectsFor(r.effects, g) == [])
      && (r.aborted <==> exists i :: 0 <= i < |entries| && RaisesKeyError(entries[i].0, entries[i].1, p, ev, cd))
      && (forall m, h :: LastNotified(r.cooldowns, m, h) ==
            if m == ev.member && SentTo(r.effects, h) then Some(ev.now) else LastNotified(cd, m, h))
  {
    var entries := GetAllSubscriptions(docs);
    var r := Notify(docs, dms, p, ev, cd);
    assert r == NotifyEach(entries, dms, p, ev, cd);
    forall k | 0 <= k < |entries| && (forall j :: 0 <= j < k ==> !RaisesKeyError(entries[j].0, entries[j].1, p, ev, cd))
      ensures EffectsFor(r.effects, entries[k].0) == NotifyGuild(entries[k].0, entries[k].1, dms, p, ev, cd).effects
    {
      NotifyEachPrefix(entries, dms, p, ev, cd, k);
    }
    forall j, k | 0 <= j < k < |entries| && RaisesKeyError(entries[j].0, entries[j].1, p, ev, cd)
      ensures EffectsFor(r.effects, entries[k].0) == []
    {
      NotifyEachCutOff(entries, dms, p, ev, cd, j, k);
    }
    NotifyEachAborts(entries, dms, p, ev, cd);
    NotifyEachCooldowns(entries, dms, p, ev, cd);
    forall g | !HasEnabledDoc(docs, g)
      ensures EffectsFor(r.effects, g) == []
    {
      EffectsForNone(r.effects, g);
    }
  }

  lemma EffectsForAll(effects: seq<Effect>, g: GuildId)
    requires forall e :: e in effects ==> e.guild == g
    ensures EffectsFor(effects, g) == effects
  {
    if effects != [] {
      EffectsForAll(effects[1..], g);
    }
  }

  lemma EffectsForNone(effects: seq<Effect>, g: GuildId)
    requires forall e :: e in effects ==> e.guild != g
    ensures EffectsFor(effects, g) == []
  {
  }
}

=== FILE: handler.dfy ===
/**
 One presence update end to end: the presence cog's start detection hands the `after`
 snapshot to the subscription manager's dispatcher, and a `KeyError` raised by the dispatcher
 ends the presence handler before its debug classification. The start detection is the
 intended one, with the check called as a plain function (see `Presence`).
 */
module Handler {
  import opened Common
  import opened Store
  import opened Cooldowns
  import opened Dispatcher
  import opened Presence

  /** The presence handler's outcome with the deliveries and the cooldown map the dispatch leaves. */
  datatype Handled = Handled(presence: PresenceOutcome, effects: seq<Effect>, cooldowns: CooldownMap)

  /** A genuine start of the tracked game with the subscription manager loaded. */
  predicate Starts(before: Snapshot, after: Snapshot, managerLoaded: bool) {
    managerLoaded && !IsTrackedGame(before.activityName) && IsTrackedGame(after.activityName)
  }

  /**
   `on_presence_update` awaiting `notify_sea_of_thieves_activity(after, "start")`. Nothing is
   delivered and no cooldown changes unless the member genuinely starts the game; then only
   enabled subscriptions are notified, each guild that no earlier `KeyError` cut off receives
   exactly the deliveries of its own step, the guilds after a raise receive nothing, only the member's cooldowns for the guilds sent to
   change, each to now, and the handler raises exactly when some enabled guild passes the
   guards without a channel id, in which case no debug line follows.
   */
  function HandlePresence(before: Snapshot, after: Snapshot, debugMode: bool, managerLoaded: bool,
                          docs: seq<GuildDoc>, dms: seq<DmDoc>, p: Platform, now: Time, cd: CooldownMap): (r: Handled)
    ensures !Starts(before, after, managerLoaded) ==> r.effects == [] && r.cooldowns == cd && !r.presence.raised
    ensures forall e :: e in r.effects ==> HasEnabledDoc(docs, e.guild)
    ensures forall m, h ::
              LastNotified(r.cooldowns, m, h) ==
              if m == after.member && SentTo(r.effects, h) then Some(now) else LastNotified(cd, m, h)
    ensures r.presence.raised <==>
      var entries := GetAllSubscriptions(docs);
      && Starts(before, after, managerLoaded)
      && exists i :: 0 <= i < |entries| && RaisesKeyError(entries[i].0, entries[i].1, p, Event(after.member, StartActivity, now), cd)
    ensures r.presence.debug.Some? ==> !r.presence.raised
    ensures r.presence.dispatch.Some? <==> Starts(before, after, managerLoaded)
    ensures Starts(before, after, managerLoaded) ==>
      var entries := GetAllSubscriptions(docs);
      var ev := Event(after.member, StartActivity, now);
      forall k :: 0 <= k < |entries| && (forall j :: 0 <= j < k ==> !RaisesKeyError(entries[j].0, entries[j].1, p, ev, cd)) ==>
        EffectsFor(r.effects, entries[k].0) == NotifyGuild(entries[k].0, entries[k].1, dms, p, ev, cd).effects
    ensures Starts(before, after, managerLoaded) ==>
      var entries := GetAllSubscriptions(docs);
      var ev := Event(after.member, StartActivity, now);
      forall j, k :: 0 <= j < k < |entries| && RaisesKeyError(entries[j].0, entries[j].1, p, ev, cd) ==>
        EffectsFor(r.effects, entries[k].0) == []
  {
    var ev := Event(after.member, StartActivity, now);
    var o := if DetectStart(before, after, managerLoaded).Some? then Notify(docs, dms, p, ev, cd) else Outcome([], cd, false);
    NotifyIndependent(docs, dms, p, ev, cd);
    Handled(OnPresenceUpdate(before, after, debugMode, managerLoaded, o.aborted), o.effects, o.cooldowns)
  }
}

=== FILE: presence.dfy ===
/**
 The game-start detector of the presence cog: the case-insensitive exact match of an activity
 name against the tracked game, the not-playing-to-playing transition that hands the event to
 the dispatcher, and the debug classification of activity changes.

 Defect in the presence cog: `check_if_sea_of_thieves` is declared inside the cog class with
 neither `self` nor `@staticmethod`, yet it is called as `self.check_if_sea_of_thieves(x)`.
 Such a call passes the cog and x as two positional arguments to a function that accepts at
 most one, so it raises `TypeError` and no start is ever detected. `DetectStartAsWritten`
 models that call; `DetectStart` models the evidently intended standalone predicate, and is
 the one the rest of the model uses.
 */
module Presence {
  import opened Common

  /** The tracked game, compared in lower case. */
  const TrackedGame: string := "sea of thieves"

  /**
   `check_if_sea_of_thieves` as a standalone predicate: false for `None` and `""`, otherwise
   true exactly when the lower-cased name equals the tracked game (no substring match, no
   trimming).
   */
  function IsTrackedGame(name: Option<string>): (r: bool)
    ensures r <==> name.Some? && CaseVariantOf(name.value, TrackedGame)
  {
    if !Truthy(name) then false
    else
      LowerEqualsIffCaseVariant(name.value, TrackedGame);
      Lower(name.value) == TrackedGame
  }

  /** A member's presence as the event reports it: the id and the current activity's name, if any. */
  datatype Snapshot = Snapshot(member: MemberId, activityName: Option<string>)

  /** What a snapshot says about the member. */
  datatype PlayState = NotPlaying | PlayingTracked | PlayingOther

  function StateOf(name: Option<string>): PlayState {
    if !Truthy(name) then NotPlaying
    else if IsTrackedGame(name) then PlayingTracked
    else PlayingOther
  }

  /** The call into the dispatcher: the `after` snapshot and the activity type. */
  datatype Dispatch = Dispatch(member: Snapshot, activity: string)

  /**
   `check_sea_of_thieves_activity` with the check called as a plain function: a start is
   dispatched, with the `after` snapshot, exactly when the member moves from not playing the
   tracked game to playing it and the subscription manager cog is loaded. Staying in the game,
   leaving it, and switching between other games dispatch nothing.
   */
  function DetectStart(before: Snapshot, after: Snapshot, managerLoaded: bool): (r: Option<Dispatch>)
    ensures r.Some? <==>
      managerLoaded && StateOf(before.activityName) != PlayingTracked && StateOf(after.activityName) == PlayingTracked
    ensures r.Some? ==> r.value == Dispatch(after, StartActivity)
  {
    if !IsTrackedGame(before.activityName) && IsTrackedGame(after.activityName) then
      if managerLoaded then Some(Dispatch(after, StartActivity)) else None
    else None
  }

  /** The outcome of a Python call: the returned value, or the `TypeError` raised by a bad call. */
  datatype Call<T> = Returned(value: T) | RaisedTypeError

  /** `check_if_sea_of_thieves(activity_name=None)` declares one positional parameter. */
  const DeclaredParameters: nat := 1

  /** A call through `self.` passes the cog ahead of the explicit argument. */
  const BoundCallArguments: nat := 2

  /**
   Python's arity rule for a function whose parameters all have defaults and which takes no
   `*args`: the call returns the body's value when at most the declared number of positional
   arguments is passed, and raises `TypeError` otherwise.
   */
  function CallWith<T>(declared: nat, passed: nat, value: T): (r: Call<T>)
    ensures r.Returned? <==> passed <= declared
    ensures r.Returned? ==> r.value == value
  {
    if passed <= declared then Returned(value) else RaisedTypeError
  }

  /** `self.check_if_sea_of_thieves(name)` as written: the bound call passes one argument too many. */
  function CheckAsCalled(name: Option<string>): (r: Call<bool>)
    ensures r == RaisedTypeError
  {
    CallWith(DeclaredParameters, BoundCallArguments, IsTrackedGame(name))
  }

  /** `check_sea_of_thieves_activity` as written: `and` short-circuits, and a raised error propagates. */
  function DetectStartAsWritten(before: Snapshot, after: Snapshot, managerLoaded: bool): (r: Call<Option<Dispatch>>)
    ensures r == RaisedTypeError
  {
    match CheckAsCalled(before.activityName)
    case RaisedTypeError => RaisedTypeError
    case Returned(wasPlaying) =>
      if wasPlaying then Returned(None)
      else
        match CheckAsCalled(after.activityName)
        case RaisedTypeError => RaisedTypeError
        case Returned(isPlaying) =>
          Returned(if isPlaying && managerLoaded then Some(Dispatch(after, StartActivity)) else None)
  }

  /**
   The detector as written misses a genuine start: a member with no activity who starts
   "Sea of Thieves" while the manager is loaded is dispatched by the intended detector, but
   the written one raises instead.
   */
  lemma AsWrittenMissesStart()
    ensures
      var before := Snapshot(7, None);
      var after := Snapshot(7, Some("Sea of Thieves"));
      && DetectStart(before, after, true) == Some(Dispatch(after, StartActivity))
      && DetectStartAsWritten(before, after, true) == RaisedTypeError
  {
    var name := "Sea of Thieves";
    assert CaseVariantOf(name, TrackedGame) by {
      assert |name| == |TrackedGame|;
      forall i | 0 <= i < |name|
        ensures name[i] == TrackedGame[i] || name[i] == UpperChar(TrackedGame[i])
      {
        assert i == 0 || i == 7 || name[i] == TrackedGame[i];
      }
    }
  }

  /** The debug output of `on_presence_update` for a changed activity. */
  datatype Transition = Switched(from: string, to: string) | Started(game: string) | Stopped(game: string)

  /**
   The debug classification, run only when the two names differ: both present is a switch,
   only the new one a start, only the old one a stop. A name counts as present when it is
   neither `None` nor empty.
   */
  function Classify(before: Option<string>, after: Option<string>): (r: Option<Transition>)
    ensures r.Some? ==> before != after
    ensures r.Some? && r.value.Switched? <==> before != after && Truthy(before) && Truthy(after)
    ensures r.Some? && r.value.Started? <==> before != after && !Truthy(before) && Truthy(after)
    ensures r.Some? && r.value.Stopped? <==> before != after && Truthy(before) && !Truthy(after)
    ensures r.Some? && r.value.Switched? ==> r.value == Switched(before.value, after.value)
    ensures r.Some? && r.value.Started? ==> r.value == Started(after.value)
    ensures r.Some? && r.value.Stopped? ==> r.value == Stopped(before.value)
  {
    if before == after then None
    else if Truthy(after) then
      if Truthy(before) then Some(Switched(before.value, after.value)) else Some(Started(after.value))
    else if Truthy(before) then Some(Stopped(before.value))
    else None
  }

  function Reverse(t: Transition): Transition {
    match t
    case Switched(a, b) => Switched(b, a)
    case Started(g) => Stopped(g)
    case Stopped(g) => Started(g)
  }

  /** Reading a change backwards turns a start into a stop of the same game and reverses a switch. */
  lemma ClassifyReverses(before: Option<string>, after: Option<string>)
    ensures Classify(after, before).None? <==> Classify(before, after).None?
    ensures Classify(before, after).Some? ==> Classify(after, before) == Some(Reverse(Classify(before, after).value))
  {
  }

  /**
   What one presence update produces: the dispatch, if any; whether the awaited dispatch
   raised, ending the handler; and the debug line, if any.
   */
  datatype PresenceOutcome = PresenceOutcome(dispatch: Option<Dispatch>, raised: bool, debug: Option<Transition>)

  /**
   `on_presence_update` with the check called as a plain function. The start detection always
   runs first. `dispatchRaises` says whether the dispatcher, once called, raises out of the
   handler (an enabled subscription without a channel id, the dispatcher's `aborted` outcome);
   then the rest of the handler does not run. Otherwise, in debug mode, a change of activity
   names is classified.
   */
  function OnPresenceUpdate(before: Snapshot, after: Snapshot, debugMode: bool, managerLoaded: bool, dispatchRaises: bool): (r: PresenceOutcome)
    ensures r.dispatch.Some? <==>
      managerLoaded && !IsTrackedGame(before.activityName) && IsTrackedGame(after.activityName)
    ensures r.dispatch.Some? ==> r.dispatch.value == Dispatch(after, StartActivity)
    ensures r.raised <==> r.dispatch.Some? && dispatchRaises
    ensures r.debug.Some? <==>
      debugMode && !r.raised && before.activityName != after.activityName
      && (Truthy(before.activityName) || Truthy(after.activityName))
    ensures r.debug.Some? ==> r.debug == Classify(before.activityName, after.activityName)
  {
    var dispatch := DetectStart(before, after, managerLoaded);
    var raised := dispatch.Some? && dispatchRaises;
    var debug := if debugMode && !raised then Classify(before.activityName, after.activityName) else None;
    PresenceOutcome(dispatch, raised, debug)
  }

  /** `on_presence_update` as written: the detection it awaits first raises, so nothing after it runs. */
  function OnPresenceUpdateAsWritten(before: Snapshot, after: Snapshot, debugMode: bool, managerLoaded: bool, dispatchRaises: bool): (r: Call<PresenceOutcome>)
    ensures r == RaisedTypeError
  {
    match DetectStartAsWritten(before, after, managerLoaded)
    case RaisedTypeError => RaisedTypeError
    case Returned(d) =>
      var raised := d.Some? && dispatchRaises;
      Returned(PresenceOutcome(d, raised, if debugMode && !raised then Classify(before.activityName, after.activityName) else None))
  }

  /**
   As written, the handler never behaves as intended: on every update the intended handler
   returns normally, while the written one raises before the dispatch and the debug output.
   */
  lemma AsWrittenDiverges(before: Snapshot, after: Snapshot, debugMode: bool, managerLoaded: bool, dispatchRaises: bool)
    ensures OnPresenceUpdateAsWritten(before, after, debugMode, managerLoaded, dispatchRaises)
      != Returned(OnPresenceUpdate(before, after, debugMode, managerLoaded, dispatchRaises))
  {
  }
}

=== FILE: store.dfy ===
/**
 The subscription store: the guild subscription collection and the DM subscription collection
 of the document database, each modelled as its documents in natural (insertion) order. A
 query returns documents in that order, `find_one` returns the first match, and
 `update_one(filter, {"$set": ...}, upsert=True)` rewrites the first match or appends the
 document an upsert inserts. Connectivity failures of the database are not modelled.
 */
module Store {
  import opened Common

  /**
   A guild subscription document. Every field but the filter key may be absent, because a
   `$set` update writes only the fields it is given.
   */
  datatype GuildDoc = GuildDoc(
    guildId: GuildId,
    guildName: Option<string>,
    channelId: Option<ChannelId>,
    channelName: Option<string>,
    enabled: Option<bool>,
    notifyStart: Option<bool>)

  /** The `$set` part of an update: fields that are `Some` are written, the others left alone. */
  datatype GuildPatch = GuildPatch(
    guildName: Option<string>,
    channelId: Option<ChannelId>,
    channelName: Option<string>,
    enabled: Option<bool>,
    notifyStart: Option<bool>)

  /** A DM subscription document; every save writes all three fields. */
  datatype DmDoc = DmDoc(userId: MemberId, guildId: GuildId, enabled: bool)

  function GuildKey(d: GuildDoc): GuildId {
    d.guildId
  }

  function DmKey(d: DmDoc): (MemberId, GuildId) {
    (d.userId, d.guildId)
  }

  predicate UniqueKeys<T, K(==)>(docs: seq<T>, key: T -> K) {
    forall i, j :: 0 <= i < j < |docs| ==> key(docs[i]) != key(docs[j])
  }

  /** Index of the first element whose key is k: the document `find_one` returns and `update_one` rewrites. */
  function FindFirst<T, K(==)>(docs: seq<T>, key: T -> K, k: K): (r: Option<nat>)
    ensures r.Some? ==> r.value < |docs| && key(docs[r.value]) == k
    ensures r.Some? ==> forall j :: 0 <= j < r.value ==> key(docs[j]) != k
    ensures r.None? ==> forall j :: 0 <= j < |docs| ==> key(docs[j]) != k
  {
    if docs == [] then None
    else if key(docs[0]) == k then Some(0)
    else match FindFirst(docs[1..], key, k)
      case None => None
      case Some(i) => Some(i + 1)
  }

  /** Any index meeting the first-match description is the one `FindFirst` returns. */
  lemma FindFirstIs<T, K>(docs: seq<T>, key: T -> K, k: K, r: Option<nat>)
    requires r.Some? ==> r.value < |docs| && key(docs[r.value]) == k
    requires r.Some? ==> forall j :: 0 <= j < r.value ==> key(docs[j]) != k
    requires r.None? ==> forall j :: 0 <= j < |docs| ==> key(docs[j]) != k
    ensures FindFirst(docs, key, k) == r
  {
    var f := FindFirst(docs, key, k);
    if r.Some? {
      assert key(docs[r.value]) == k;
      assert f.Some? && f.value <= r.value;
      assert key(docs[f.value]) == k;
    } else {
      assert f.None?;
    }
  }

  /** The first match depends only on the keys of the elements. */
  lemma FindFirstSameKeys<T, K>(a: seq<T>, b: seq<T>, key: T -> K, k: K)
    requires |a| == |b|
    requires forall i :: 0 <= i < |a| ==> key(a[i]) == key(b[i])
    ensures FindFirst(a, key, k) == FindFirst(b, key, k)
  {
    FindFirstIs(b, key, k, FindFirst(a, key, k));
  }

  /** Appending an element does not move an existing first match, and a new key is found at the end. */
  lemma FindFirstAppend<T, K>(a: seq<T>, x: T, key: T -> K, k: K)
    ensures FindFirst(a + [x], key, k) ==
      if FindFirst(a, key, k).Some? then FindFirst(a, key, k)
      else if key(x) == k then Some(|a|)
      else None
  {
    var b := a + [x];
    assert forall j :: 0 <= j < |a| ==> b[j] == a[j];
    var r := FindFirst(a, key, k);
    if r.Some? {
      FindFirstIs(b, key, k, r);
    } else if key(x) == k {
      FindFirstIs(b, key, k, Some(|a|));
    } else {
      FindFirstIs(b, key, k, None);
    }
  }

  // ---------------------------------------------------------------------------------------
  // Guild subscriptions
  // ---------------------------------------------------------------------------------------

  /** `$set` merge: a written field takes the new value, an unwritten field keeps the old one. */
  function SetField<T>(current: Option<T>, written: Option<T>): Option<T> {
    if written.Some? then written else current
  }

  function Apply(d: GuildDoc, p: GuildPatch): GuildDoc {
    GuildDoc(
      d.guildId,
      SetField(d.guildName, p.guildName),
      SetField(d.channelId, p.channelId),
      SetField(d.channelName, p.channelName),
      SetField(d.enabled, p.enabled),
      SetField(d.notifyStart, p.notifyStart))
  }

  /** The document an upsert inserts before applying `$set`: just the filter field. */
  function NewDoc(g: GuildId): GuildDoc {
    GuildDoc(g, None, None, None, None, None)
  }

  /** A stored document handed back whole as the `$set` of an update. */
  function AsPatch(d: GuildDoc): GuildPatch {
    GuildPatch(d.guildName, d.channelId, d.channelName, d.enabled, d.notifyStart)
  }

  /** `get_subscription`: the first document of the guild, if any. */
  function GetSubscription(docs: seq<GuildDoc>, g: GuildId): (r: Option<GuildDoc>)
    ensures r.None? <==> forall i :: 0 <= i < |docs| ==> docs[i].guildId != g
    ensures r.Some? ==> r.value.guildId == g && r.value in docs
  {
    match FindFirst(docs, GuildKey, g)
    case None => None
    case Some(i) => Some(docs[i])
  }

  /** `save_subscription`: upsert keyed by guild id with `$set` merge. */
  function SaveSubscription(docs: seq<GuildDoc>, g: GuildId, p: GuildPatch): (r: seq<GuildDoc>)
    ensures GetSubscription(r, g) == Some(Apply(GetSubscription(docs, g).GetOr(NewDoc(g)), p))
    ensures forall h :: h != g ==> GetSubscription(r, h) == GetSubscription(docs, h)
    ensures UniqueKeys(docs, GuildKey) ==> UniqueKeys(r, GuildKey)
  {
    match FindFirst(docs, GuildKey, g)
    case Some(i) =>
      var r := docs[i := Apply(docs[i], p)];
      assert forall h :: FindFirst(r, GuildKey, h) == FindFirst(docs, GuildKey, h) by {
        forall h {
          FindFirstSameKeys(r, docs, GuildKey, h);
        }
      }
      r
    case None =>
      var x := Apply(NewDoc(g), p);
      var r := docs + [x];
      assert forall h :: h != g ==> FindFirst(r, GuildKey, h) == FindFirst(docs, GuildKey, h) by {
        forall h | h != g {
          FindFirstAppend(docs, x, GuildKey, h);
        }
      }
      FindFirstAppend(docs, x, GuildKey, g);
      r
  }

  /**
   Reading a guild back after a save: the key is the guild's, every field the patch wrote
   has the written value, and every field it did not write keeps the value it had before
   (absent for a newly inserted document).
   */
  lemma SaveThenGet(docs: seq<GuildDoc>, g: GuildId, p: GuildPatch)
    ensures
      var prev := GetSubscription(docs, g).GetOr(NewDoc(g));
      var got := GetSubscription(SaveSubscription(docs, g, p), g);
      && got.Some?
      && got.value.guildId == g
      && (p.guildName.Some? ==> got.value.guildName == p.guildName)
      && (p.guildName.None? ==> got.value.guildName == prev.guildName)
      && (p.channelId.Some? ==> got.value.channelId == p.channelId)
      && (p.channelId.None? ==> got.value.channelId == prev.channelId)
      && (p.channelName.Some? ==> got.value.channelName == p.channelName)
      && (p.channelName.None? ==> got.value.channelName == prev.channelName)
      && (p.enabled.Some? ==> got.value.enabled == p.enabled)
      && (p.enabled.None? ==> got.value.enabled == prev.enabled)
      && (p.notifyStart.Some? ==> got.value.notifyStart == p.notifyStart)
      && (p.notifyStart.None? ==> got.value.notifyStart == prev.notifyStart)
  {
  }

  /** Saving a patch that writes every field and reading it back returns exactly those fields. */
  lemma SaveFullRoundTrip(docs: seq<GuildDoc>, g: GuildId, name: string, channel: ChannelId, channelName: string, enabled: bool, notifyStart: bool)
    ensures
      var p := GuildPatch(Some(name), Some(channel), Some(channelName), Some(enabled), Some(notifyStart));
      GetSubscription(SaveSubscription(docs, g, p), g)
        == Some(GuildDoc(g, Some(name), Some(channel), Some(channelName), Some(enabled), Some(notifyStart)))
  {
  }

  /** Python `d[k] = v` on an insertion-ordered dict: replace in place, or append a new key. */
  function DictPut<V>(d: seq<(GuildId, V)>, k: GuildId, v: V): (r: seq<(GuildId, V)>)
    requires UniqueKeys(d, EntryKey)
    ensures UniqueKeys(r, EntryKey)
    ensures exists i :: 0 <= i < |r| && r[i] == (k, v)
    ensures forall i :: 0 <= i < |r| ==> r[i] == (k, v) || (r[i] in d && r[i].0 != k)
    ensures forall i :: 0 <= i < |d| && d[i].0 != k ==> d[i] in r
  {
    match FindFirst(d, EntryKey, k)
    case Some(i) =>
      var r := d[i := (k, v)];
      assert r[i] == (k, v);
      assert forall j :: 0 <= j < |r| && j != i ==> r[j] == d[j];
      assert forall j :: 0 <= j < |d| && j != i ==> d[j].0 != k;
      r
    case None =>
      var r := d + [(k, v)];
      assert r[|d|] == (k, v);
      r
  }

  function EntryKey<V>(e: (GuildId, V)): GuildId {
    e.0
  }

  /** Some document of guild g has `enabled` set to true. */
  predicate HasEnabledDoc(docs: seq<GuildDoc>, g: GuildId) {
    exists i :: 0 <= i < |docs| && docs[i].guildId == g && docs[i].enabled == Some(true)
  }

  predicate HasKey<V>(d: seq<(GuildId, V)>, g: GuildId) {
    exists i :: 0 <= i < |d| && d[i].0 == g
  }

  /** An enabled document of `docs` is one of its prefix or its last document. */
  lemma EnabledDocSplit(docs: seq<GuildDoc>)
    requires docs != []
    ensures forall g :: HasEnabledDoc(docs, g) <==>
      HasEnabledDoc(docs[..|docs| - 1], g) || (docs[|docs| - 1].guildId == g && docs[|docs| - 1].enabled == Some(true))
  {
    var prefix := docs[..|docs| - 1];
    forall g | HasEnabledDoc(docs, g)
      ensures HasEnabledDoc(prefix, g) || (docs[|docs| - 1].guildId == g && docs[|docs| - 1].enabled == Some(true))
    {
      var i :| 0 <= i < |docs| && docs[i].guildId == g && docs[i].enabled == Some(true);
      if i < |docs| - 1 {
        assert prefix[i] == docs[i];
      }
    }
    forall g | HasEnabledDoc(prefix, g)
      ensures HasEnabledDoc(docs, g)
    {
      var i :| 0 <= i < |prefix| && prefix[i].guildId == g && prefix[i].enabled == Some(true);
      assert docs[i] == prefix[i];
    }
  }

  /** Every document of the prefix is a document of `docs`. */
  lemma PrefixMembers(docs: seq<GuildDoc>)
    requires docs != []
    ensures forall x :: x in docs[..|docs| - 1] ==> x in docs
  {
    forall x | x in docs[..|docs| - 1]
      ensures x in docs
    {
      var j :| 0 <= j < |docs| - 1 && docs[..|docs| - 1][j] == x;
      assert docs[j] == x;
    }
  }

  /**
   `get_all_subscriptions`: the documents with `enabled` true, in the order `find` yields
   them, collected into a dict keyed by guild id.
   */
  function GetAllSubscriptions(docs: seq<GuildDoc>): (r: seq<(GuildId, GuildDoc)>)
    ensures UniqueKeys(r, EntryKey)
    ensures forall i :: 0 <= i < |r| ==> r[i].1.guildId == r[i].0 && r[i].1.enabled == Some(true) && r[i].1 in docs
    ensures forall g :: HasKey(r, g) <==> HasEnabledDoc(docs, g)
  {
    if docs == [] then []
    else
      var prefix := docs[..|docs| - 1];
      var d := docs[|docs| - 1];
      var rest := GetAllSubscriptions(prefix);
      EnabledDocSplit(docs);
      assert forall e :: e in rest ==> e.1 in docs by {
        PrefixMembers(docs);
      }
      if d.enabled == Some(true) then
        var r := DictPut(rest, d.guildId, d);
        assert forall g :: HasKey(r, g) <==> HasKey(rest, g) || g == d.guildId by {
          forall g | HasKey(rest, g) && g != d.guildId
            ensures HasKey(r, g)
          {
            var i :| 0 <= i < |rest| && rest[i].0 == g;
            assert rest[i] in r;
          }
        }
        r
      else rest
  }

  /** The enabled documents in natural order: the reference for the dict `get_all_subscriptions` builds. */
  function EnabledDocs(docs: seq<GuildDoc>): seq<GuildDoc> {
    if docs == [] then []
    else
      var d := docs[|docs| - 1];
      EnabledDocs(docs[..|docs| - 1]) + (if d.enabled == Some(true) then [d] else [])
  }

  function Entries(docs: seq<GuildDoc>): seq<(GuildId, GuildDoc)> {
    seq(|docs|, i requires 0 <= i < |docs| => (docs[i].guildId, docs[i]))
  }

  /**
   While every guild has at most one document (the invariant saves keep), the dict holds
   exactly the enabled documents, keyed by their guild ids, in natural order: nothing is lost
   to a later document of the same guild.
   */
  lemma {:induction false} GetAllIsEnabledDocs(docs: seq<GuildDoc>)
    requires UniqueKeys(docs, GuildKey)
    ensures GetAllSubscriptions(docs) == Entries(EnabledDocs(docs))
  {
    if docs != [] {
      var prefix := docs[..|docs| - 1];
      var d := docs[|docs| - 1];
      assert UniqueKeys(prefix, GuildKey);
      GetAllIsEnabledDocs(prefix);
      var rest := GetAllSubscriptions(prefix);
      if d.enabled == Some(true) {
        forall i | 0 <= i < |prefix|
          ensures prefix[i].guildId != d.guildId
        {
          assert docs[i] == prefix[i];
        }
        assert !HasEnabledDoc(prefix, d.guildId);
        assert FindFirst(rest, EntryKey, d.guildId).None?;
        assert Entries(EnabledDocs(prefix) + [d]) == Entries(EnabledDocs(prefix)) + [(d.guildId, d)];
      }
    }
  }

  // ---------------------------------------------------------------------------------------
  // DM subscriptions
  // ---------------------------------------------------------------------------------------

  /** `get_dm_subscription`: the first DM document of the (user, guild) pair, if any. */
  function GetDmSubscription(dms: seq<DmDoc>, u: MemberId, g: GuildId): (r: Option<DmDoc>)
    ensures r.None? <==> forall i :: 0 <= i < |dms| ==> DmKey(dms[i]) != (u, g)
    ensures r.Some? ==> r.value.userId == u && r.value.guildId == g && r.value in dms
  {
    match FindFirst(dms, DmKey, (u, g))
    case None => None
    case Some(i) => Some(dms[i])
  }

  /** `save_dm_subscription`: upsert keyed by (user, guild) writing all three fields. */
  function SaveDmSubscription(dms: seq<DmDoc>, u: MemberId, g: GuildId, enabled: bool): (r: seq<DmDoc>)
    ensures GetDmSubscription(r, u, g) == Some(DmDoc(u, g, enabled))
    ensures forall v, h :: (v, h) != (u, g) ==> GetDmSubscription(r, v, h) == GetDmSubscription(dms, v, h)
    ensures UniqueKeys(dms, DmKey) ==> UniqueKeys(r, DmKey)
  {
    var x := DmDoc(u, g, enabled);
    match FindFirst(dms, DmKey, (u, g))
    case Some(i) =>
      var r := dms[i := x];
      assert forall k :: FindFirst(r, DmKey, k) == FindFirst(dms, DmKey, k) by {
        forall k {
          FindFirstSameKeys(r, dms, DmKey, k);
        }
      }
      r
    case None =>
      var r := dms + [x];
      assert forall k :: k != (u, g) ==> FindFirst(r, DmKey, k) == FindFirst(dms, DmKey, k) by {
        forall k | k != (u, g) {
          FindFirstAppend(dms, x, DmKey, k);
        }
      }
      FindFirstAppend(dms, x, DmKey, (u, g));
      r
  }

  predicate NoDuplicates<T(==)>(s: seq<T>) {
    forall i, j :: 0 <= i < j < |s| ==> s[i] != s[j]
  }

  /** An enabled DM document of user u for guild g exists. */
  predicate IsDmSubscriber(dms: seq<DmDoc>, u: MemberId, g: GuildId) {
    DmDoc(u, g, true) in dms
  }

  /**
   `get_dm_subscribers_for_guild`: the user ids of the guild's enabled DM documents in natural
   order; while each (user, guild) pair has one document, nobody is listed twice.
   */
  function GetDmSubscribers(dms: seq<DmDoc>, g: GuildId): (r: seq<MemberId>)
    ensures forall u :: u in r <==> IsDmSubscriber(dms, u, g)
    ensures UniqueKeys(dms, DmKey) ==> NoDuplicates(r)
  {
    if dms == [] then []
    else
      var rest := GetDmSubscribers(dms[1..], g);
      assert forall u :: IsDmSubscriber(dms, u, g) <==> dms[0] == DmDoc(u, g, true) || IsDmSubscriber(dms[1..], u, g) by {
        assert dms == [dms[0]] + dms[1..];
      }
      assert UniqueKeys(dms, DmKey) ==> UniqueKeys(dms[1..], DmKey);
      if dms[0].guildId == g && dms[0].enabled then
        assert UniqueKeys(dms, DmKey) ==> !IsDmSubscriber(dms[1..], dms[0].userId, g) by {
          if UniqueKeys(dms, DmKey) {
            forall j | 0 <= j < |dms[1..]|
              ensures dms[1..][j] != DmDoc(dms[0].userId, g, true)
            {
              assert DmKey(dms[0]) != DmKey(dms[j + 1]);
            }
          }
        }
        [dms[0].userId] + rest
      else
        rest
  }

  /** `a` can be obtained from `b` by deleting elements, keeping the order of the rest. */
  predicate IsSubsequence<T(==)>(a: seq<T>, b: seq<T>) {
    a == [] || (b != [] && ((a[0] == b[0] && IsSubsequence(a[1..], b[1..])) || IsSubsequence(a, b[1..])))
  }

  /**
   `get_all_dm_subscriptions_for_user`: the user's enabled DM documents across all guilds, in
   natural order; while each (user, guild) pair has one document, none is listed twice.
   */
  function GetAllDmSubscriptionsForUser(dms: seq<DmDoc>, u: MemberId): (r: seq<DmDoc>)
    ensures forall d :: d in r <==> d in dms && d.userId == u && d.enabled
    ensures UniqueKeys(dms, DmKey) ==> NoDuplicates(r)
  {
    if dms == [] then []
    else
      var rest := GetAllDmSubscriptionsForUser(dms[1..], u);
      assert forall d :: d in dms <==> d == dms[0] || d in dms[1..] by {
        assert dms == [dms[0]] + dms[1..];
      }
      assert UniqueKeys(dms, DmKey) ==> UniqueKeys(dms[1..], DmKey) && dms[0] !in dms[1..] by {
        if UniqueKeys(dms, DmKey) {
          forall j | 0 <= j < |dms[1..]|
            ensures dms[1..][j] != dms[0]
          {
            assert DmKey(dms[0]) != DmKey(dms[j + 1]);
          }
        }
      }
      if dms[0].userId == u && dms[0].enabled then
        var r := [dms[0]] + rest;
        assert forall d :: d in r <==> d == dms[0] || d in rest;
        r
      else
        rest
  }

  /**
   The user's list is exactly the filter of the store: it keeps the store's order, and lists
   each of the user's enabled documents as often as it is stored and nothing else.
   */
  lemma {:induction false} UserDmsAreFilter(dms: seq<DmDoc>, u: MemberId)
    ensures IsSubsequence(GetAllDmSubscriptionsForUser(dms, u), dms)
    ensures forall d ::
              multiset(GetAllDmSubscriptionsForUser(dms, u))[d] ==
              if d.userId == u && d.enabled then multiset(dms)[d] else 0
  {
    if dms != [] {
      var r := GetAllDmSubscriptionsForUser(dms, u);
      var rest := GetAllDmSubscriptionsForUser(dms[1..], u);
      UserDmsAreFilter(dms[1..], u);
      assert multiset(dms) == multiset{dms[0]} + multiset(dms[1..]) by {
        assert dms == [dms[0]] + dms[1..];
      }
      if dms[0].userId == u && dms[0].enabled {
        assert r == [dms[0]] + rest;
        assert r[0] == dms[0] && r[1..] == rest;
        assert multiset(r) == multiset{dms[0]} + multiset(rest);
      } else {
        assert r == rest;
      }
    }
  }

  /**
   The two DM queries agree: an enabled DM document of user u for guild g is in the user's
   list exactly when u is among g's DM subscribers.
   */
  lemma DmQueriesAgree(dms: seq<DmDoc>, u: MemberId, g: GuildId)
    ensures DmDoc(u, g, true) in GetAllDmSubscriptionsForUser(dms, u) <==> u in GetDmSubscribers(dms, g)
  {
  }
}

=== FILE: web.dfy ===
/**
 The logic of the web dashboard: the bounded in-memory log buffer, the aggregation behind the
 bot status endpoint, and the parse of the `DEBUG_MODE` environment flag. The clock, the
 environment and the bot instance are inputs; the socket emit and the JSON rendering are not
 modelled.
 */
module WebInterface {
  import opened Common

  // ---------------------------------------------------------------------------------------
  // Log buffer
  // ---------------------------------------------------------------------------------------

  /** The buffer keeps at most this many entries. */
  const MaxLogs: nat := 100

  datatype LogEntry = LogEntry(timestamp: string, level: string, message: string)

  /**
   `add_log`: append the entry, then drop the oldest one if the buffer grew past its bound.
   The new entry is always last; below the bound nothing is lost, at the bound exactly the
   oldest entry goes.
   */
  function AddLog(logs: seq<LogEntry>, timestamp: string, level: string, message: string): (r: seq<LogEntry>)
    ensures |logs| <= MaxLogs ==> |r| <= MaxLogs
    ensures |r| > 0 && r[|r| - 1] == LogEntry(timestamp, level, message)
    ensures |logs| < MaxLogs ==> r[..|r| - 1] == logs
    ensures |logs| >= MaxLogs ==> r[..|r| - 1] == logs[1..]
  {
    var entry := LogEntry(timestamp, level, message);
    var appended := logs + [entry];
    assert appended[..|logs|] == logs;
    if |appended| > MaxLogs then
      assert appended[1..][..|logs| - 1] == logs[1..];
      appended[1..]
    else appended
  }

  /** Log a sequence of entries, oldest first. */
  function AddAll(logs: seq<LogEntry>, entries: seq<LogEntry>): seq<LogEntry> {
    if entries == [] then logs
    else
      var e := entries[|entries| - 1];
      AddLog(AddAll(logs, entries[..|entries| - 1]), e.timestamp, e.level, e.message)
  }

  /** The newest `MaxLogs` entries of a history. */
  function Newest(history: seq<LogEntry>): seq<LogEntry> {
    if |history| <= MaxLogs then history else history[|history| - MaxLogs..]
  }

  /**
   The buffer is a sliding window: starting from a buffer within the bound, after any number
   of `add_log` calls it holds exactly the newest 100 entries of everything it has seen, in order.
   */
  lemma {:induction false} BufferKeepsNewest(logs: seq<LogEntry>, entries: seq<LogEntry>)
    requires |logs| <= MaxLogs
    ensures AddAll(logs, entries) == Newest(logs + entries)
  {
    if entries != [] {
      var prefix := entries[..|entries| - 1];
      var e := entries[|entries| - 1];
      var h := logs + prefix;
      BufferKeepsNewest(logs, prefix);
      assert logs + entries == h + [e] by {
        assert entries == prefix + [e];
      }
      AddLogOnWindow(h, e);
    }
  }

  /** One `add_log` on the window of a history is the window of the history extended by the entry. */
  lemma AddLogOnWindow(h: seq<LogEntry>, e: LogEntry)
    ensures AddLog(Newest(h), e.timestamp, e.level, e.message) == Newest(h + [e])
  {
    var before := Newest(h);
    var r := AddLog(before, e.timestamp, e.level, e.message);
    assert r == r[..|r| - 1] + [e];
    if |h| >= MaxLogs {
      assert before[1..] == h[|h| - MaxLogs + 1..];
      assert (h + [e])[|h| + 1 - MaxLogs..] == h[|h| - MaxLogs + 1..] + [e];
    }
  }

  // ---------------------------------------------------------------------------------------
  // Bot status
  // ---------------------------------------------------------------------------------------

  /** A guild as the bot reports it; the member count is unknown (`None`) without member data. */
  datatype GuildInfo = GuildInfo(id: int, name: string, memberCount: Option<nat>)

  datatype BotUser = BotUser(id: int, display: string)

  /** What the status endpoint reads from a running bot. */
  datatype BotView = BotView(ready: bool, user: Option<BotUser>, guilds: seq<GuildInfo>)

  datatype GuildRow = GuildRow(name: string, memberCount: nat, id: int)

  /** The JSON replies of the endpoint. */
  datatype StatusReply =
    | NotInitialized(status: string, error: string)
    | Report(status: string, username: string, userId: Option<int>, guildCount: nat, totalMembers: nat, guilds: seq<GuildRow>)
    | Failed(status: string, error: string)

  /** The message of the `TypeError` that `sum` raises on reaching a `None` member count. */
  const SumTypeError: string := "unsupported operand type(s) for +: 'int' and 'NoneType'"

  /** `sum(guild.member_count for guild in guilds)`: `None` stands for the raised `TypeError`. */
  function TotalMembers(guilds: seq<GuildInfo>): (r: Option<nat>)
    ensures r.None? <==> exists i :: 0 <= i < |guilds| && guilds[i].memberCount.None?
  {
    if guilds == [] then Some(0)
    else
      var g := guilds[|guilds| - 1];
      var prefix := guilds[..|guilds| - 1];
      assert forall i :: 0 <= i < |prefix| ==> prefix[i] == guilds[i];
      match TotalMembers(prefix)
      case None => None
      case Some(t) =>
        match g.memberCount
        case None => None
        case Some(n) => Some(t + n)
  }

  /** The guild rows of a report, one per guild, in order. */
  function Rows(guilds: seq<GuildInfo>): seq<GuildRow>
    requires forall i :: 0 <= i < |guilds| ==> guilds[i].memberCount.Some?
  {
    seq(|guilds|, i requires 0 <= i < |guilds| => GuildRow(guilds[i].name, guilds[i].memberCount.value, guilds[i].id))
  }

  /** The sum of the member counts of report rows. */
  function SumRows(rows: seq<GuildRow>): nat {
    if rows == [] then 0 else SumRows(rows[..|rows| - 1]) + rows[|rows| - 1].memberCount
  }

  lemma {:induction false} TotalMembersIsSumOfRows(guilds: seq<GuildInfo>)
    requires forall i :: 0 <= i < |guilds| ==> guilds[i].memberCount.Some?
    ensures TotalMembers(guilds) == Some(SumRows(Rows(guilds)))
  {
    if guilds != [] {
      var prefix := guilds[..|guilds| - 1];
      TotalMembersIsSumOfRows(prefix);
      assert Rows(guilds)[..|guilds| - 1] == Rows(prefix);
    }
  }

  /**
   `bot_status`: without a bot instance, offline with an error; when a member count is
   unknown, the error reply; otherwise a report whose guild count is the number of guilds,
   whose rows copy the guilds in order, whose total is the sum of their member counts, and
   which is online exactly when the bot is ready.
   */
  function BotStatus(bot: Option<BotView>): (r: StatusReply)
    ensures r.NotInitialized? <==> bot.None?
    ensures r.NotInitialized? ==> r.status == "offline" && r.error == "Bot not initialized"
    ensures r.Failed? <==> bot.Some? && exists i :: 0 <= i < |bot.value.guilds| && bot.value.guilds[i].memberCount.None?
    ensures r.Failed? ==> r.status == "error"
    ensures r.Report? ==> (r.status == "online" <==> bot.value.ready) && (r.status == "offline" <==> !bot.value.ready)
    ensures r.Report? ==>
      var gs := bot.value.guilds;
      && r.guildCount == |gs|
      && |r.guilds| == |gs|
      && (forall i :: 0 <= i < |gs| ==> r.guilds[i] == GuildRow(gs[i].name, gs[i].memberCount.value, gs[i].id))
      && r.totalMembers == SumRows(r.guilds)
    ensures r.Report? ==> r.userId == (if bot.value.user.Some? then Some(bot.value.user.value.id) else None)
  {
    match bot
    case None => NotInitialized("offline", "Bot not initialized")
    case Some(b) =>
      match TotalMembers(b.guilds)
      case None => Failed("error", SumTypeError)
      case Some(total) =>
        TotalMembersIsSumOfRows(b.guilds);
        Report(
          if b.ready then "online" else "offline",
          if b.user.Some? then b.user.value.display else "Unknown",
          if b.user.Some? then Some(b.user.value.id) else None,
          |b.guilds|,
          total,
          Rows(b.guilds))
  }

  // ---------------------------------------------------------------------------------------
  // Debug flag
  // ---------------------------------------------------------------------------------------

  /** The lower-cased values of `DEBUG_MODE` that switch debug mode on. */
  const DebugValues: seq<string> := ["true", "1", "yes"]

  /**
   `os.getenv('DEBUG_MODE', 'False').lower() in ['true', '1', 'yes']`, the parse shared by the
   settings endpoint and both cogs: on exactly for the case variants of "true" and "yes" and
   for "1"; off when the variable is unset.
   */
  function DebugMode(env: Option<string>): (r: bool)
    ensures r <==> env.Some? && (CaseVariantOf(env.value, "true") || env.value == "1" || CaseVariantOf(env.value, "yes"))
  {
    var v := env.GetOr("False");
    LowerEqualsIffCaseVariant(v, "true");
    LowerEqualsIffCaseVariant(v, "1");
    LowerEqualsIffCaseVariant(v, "yes");
    assert CaseVariantOf(v, "1") <==> v == "1";
    assert env.None? ==> !CaseVariantOf(v, "true") && !CaseVariantOf(v, "yes") by {
      if env.None? {
        assert v[1] == 'a';
      }
    }
    Lower(v) in DebugValues
  }
}
